=== FILE: README.md ===
# LocalVocal directory core in Dafny

This project models the logic behind the LocalVocal choral directory, a
TypeScript site that lists choral organizations and their ensembles. The
model covers:

- **The record store.** Two JSON files of organizations and ensembles,
  with lookups by id and by URL slug, the join of an organization with its
  ensembles, and the two create operations with their validation and
  null-normalisation.
- **The HTTP layer on top of the store.** The admin session gate, the
  login, logout and status handlers, and the mapping from storage outcomes
  to 200/400/401/404/500.
- **The directory page's filter engine.** Search plus five facets, a
  two-key sort, the per-organization ensemble count, the subtitle rule and
  the voice-part badge.
- **Display helpers.** The organization card and the organization detail
  page.
- **Form state.** The admin page's forms and the public "submit your
  group" form.

Each part is a Dafny module: `Wrappers`, `Text`, `Seqs`, `Schema`,
`JsonStorage`, `Routes`, `Display`, `Directory`, `OrganizationCard`,
`OrganizationDetail`, `Admin` and `SubmitGroup`. Records are immutable
datatypes with `Option<string>` for nullable columns. Operations are pure
functions. The store and the forms are state records that the transitions
return.

JavaScript semantics are modelled explicitly, as follows.

- **`trim`** strips the ECMAScript white-space and line-terminator
  characters.
- **Truthiness.** A nullable string is falsy when it is null or empty.
  `x || null` and `x || ""` are `OrNull` and `OrEmpty`.
- **`toLowerCase`** is ASCII lower-casing.
- **`localeCompare`** is code-point lexicographic order. It is proved to be
  a total order.
- **`Array.prototype.sort`** is a stable insertion sort on a key.
- **`find`** returns the first match.
- **`Record` assignment in a loop** keeps the last write.

Inputs that come from the environment are parameters:

- the state of each data file;
- the fresh id from `randomUUID`;
- the clock reading from `Date.now`;
- the session object and whether destroying it fails;
- values stored in `localStorage`.

## Model

| member | source | states |
|---|---|---|
| `Text.TrimEmptyIffBlank` | server/json-storage.ts:45-47 | `s.trim()` is empty exactly when every character of `s` is JavaScript white space, so the "blank" tests on file contents and names mean "all white space" |
| `Text.Trim` | server/json-storage.ts:106 | the trimmed text is a slice of the input with only white space outside it, no longer than the input, and it neither starts nor ends with white space |
| `Text.TrimBothIsSlice` | server/json-storage.ts:106 | dropping leading then trailing white space leaves a slice of the input whose outside is all white space |
| `Text.OrNull` | server/json-storage.ts:115-121 | `x \|\| null` is null exactly for a null or empty value and is otherwise the value itself |
| `Text.OrEmpty` | client/src/pages/admin.tsx:110-118 | `x \|\| ""` is "" exactly for a falsy value and is otherwise the value itself |
| `Text.OrNullOrEmptyRoundTrip` | client/src/pages/admin.tsx:108-122 | turning a nullable value into form text and back with `\|\| null` gives the original normalised value, and the reverse trip returns the text |
| `Text.Lower` | client/src/pages/directory.tsx:288 | lower-casing keeps the length and lower-cases each character independently |
| `Text.ContainsIffOccurs` | client/src/pages/directory.tsx:289-294 | `includes` holds exactly when the needle occurs at some position of the haystack |
| `Text.StrCmpZeroIff` | client/src/pages/directory.tsx:336-341 | the comparison used for `localeCompare` returns 0 exactly for equal strings |
| `Text.StrCmpAntisymmetric` | client/src/pages/directory.tsx:336-341 | swapping the arguments negates the comparison |
| `Text.StrCmpTransitive` | client/src/pages/directory.tsx:336-341 | the comparison is transitive, so it is a total order the sort can rely on |
| `Text.StrCmpStrictTransitive` | client/src/pages/directory.tsx:336-341 | a chain with one strict step is strict |
| `Text.JoinTwo` | client/src/pages/organization-detail.tsx:321-324 | joining two strings puts exactly one separator between them |
| `Text.NatToString` | client/src/components/organization-card.tsx:101 | the decimal rendering of a count is non-empty, all digits and has no leading zero |
| `Text.NatToStringRoundTrip` | client/src/pages/submit-group.tsx:34 | reading back the decimal rendering of a number gives the number |
| `Seqs.Filter` | server/json-storage.ts:141 | `filter` keeps exactly the elements satisfying the predicate |
| `Seqs.FilterMultiset` | client/src/pages/directory.tsx:282-327 | filtering keeps each satisfying element as often as it occurs and adds nothing |
| `Seqs.FilterAppend` | server/json-storage.ts:141 | filtering commutes with concatenation, so relative order is kept |
| `Seqs.FilterKeepsAll` | client/src/pages/submit-group.tsx:44-46 | filtering a list whose every element passes returns the list unchanged |
| `Seqs.FindIndex` | server/json-storage.ts:78 | the index found is the first whose element satisfies the predicate; none is found only when no element does |
| `Seqs.Find` | server/json-storage.ts:78 | `find` returns a list element satisfying the predicate, with none before it, and returns nothing exactly when no element satisfies it |
| `Seqs.FindIsFirst` | server/json-storage.ts:78 | `find` returns exactly the element at the first index that satisfies the predicate |
| `Seqs.KeyLeTransitive` | client/src/pages/directory.tsx:330-342 | the two-key order (organization name, then ensemble name) is transitive |
| `Seqs.InsertSorted` | client/src/pages/directory.tsx:330-342 | inserting into a sorted list keeps it sorted |
| `Seqs.Sort` | client/src/pages/directory.tsx:330-342 | sorting returns a permutation of its input ordered by the key |
| `Seqs.SortSameElements` | client/src/pages/directory.tsx:330-342 | sorting keeps membership and length |
| `Schema.OrganizationRow` | shared/schema.ts:40-42 | an organization insert shape plus an id is a row whose non-id fields are that shape |
| `Schema.EnsembleRow` | shared/schema.ts:44-46 | an ensemble insert shape plus an id is a row whose non-id fields are that shape |
| `Schema.RowIsIdPlusFields` | shared/schema.ts:48-52 | every row is its id plus its insert shape, for both tables |
| `JsonStorage.ReadJsonFile` | server/json-storage.ts:42-57 | a missing file or white-space-only contents read as the empty list; an unreadable file or unparsable contents are an error; parsed contents are returned as they are |
| `JsonStorage.EnsemblesOfAppend` | server/json-storage.ts:141 | the ensembles of one organization in a concatenation are those of each part, in order |
| `JsonStorage.GetEnsemblesByOrganization` | server/json-storage.ts:135-142 | an empty id is rejected; the call succeeds exactly when the id is non-empty and the ensembles file reads, and then returns exactly the stored ensembles with that organization id, in stored order |
| `JsonStorage.GetOrganization` | server/json-storage.ts:72-86 | an empty id is rejected; with both files readable there is a result; there is no organization exactly when none has the id, and otherwise the result is the FIRST stored organization with that id joined with exactly its ensembles |
| `JsonStorage.GetOrganizationBySlug` | server/json-storage.ts:88-102 | the slug error happens exactly for an empty slug; with both files readable the call succeeds unless the first match has an empty id, which the join rejects; a result is the first organization with that slug joined with its ensembles, and nothing is returned exactly when no organization has the slug |
| `JsonStorage.NormalizeOrganization` | server/json-storage.ts:112-123 | the stored organization has the fresh id; falsy `shortName` to `missionStatement` become null; `name` and `goals` are copied unchanged |
| `JsonStorage.NormalizeEnsemble` | server/json-storage.ts:162-179 | the stored ensemble has the fresh id; falsy `shortName` to `rehearsalDetails` become null; `name`, `organizationId` and `description` are copied unchanged |
| `JsonStorage.NormalizeIdempotent` | server/json-storage.ts:112-121 | normalising a stored record again changes nothing |
| `JsonStorage.CreateOrganization` | server/json-storage.ts:104-129 | the name-required error happens exactly for a blank name and the read error exactly for a failed read; an error writes nothing; success appends exactly the normalised organization to the list read |
| `JsonStorage.CreateEnsemble` | server/json-storage.ts:144-185 | the blank-name, blank-organization-id and unknown-organization errors each happen exactly under their condition, in that order; with both names present, both files readable and the organization stored, the create succeeds; an error writes nothing; success appends exactly the normalised ensemble and leaves the organizations file alone |
| `JsonStorage.CreateOrganizationThenList` | server/json-storage.ts:104-128 | with a non-blank name and a readable list, the create succeeds; the list is then the old list plus the new organization at the end, the earlier records are untouched and the ensembles file is unchanged |
| `JsonStorage.CreateOrganizationKeepsConsistent` | server/json-storage.ts:104-129 | with a fresh id, creating an organization keeps ids unique and every ensemble's organization resolvable |
| `JsonStorage.CreateEnsembleKeepsConsistent` | server/json-storage.ts:144-185 | with a fresh id, creating an ensemble keeps ids unique and every ensemble's organization resolvable |
| `JsonStorage.AppendResolvedEnsembleKeepsConsistent` | server/json-storage.ts:150-182 | appending an ensemble whose id is fresh and whose organization is stored keeps the store consistent |
| `JsonStorage.CreateEnsembleSucceeds` | server/json-storage.ts:144-184 | with a non-blank name and organization id, both files readable and the organization stored, the create succeeds and returns the normalised input with the fresh id |
| `JsonStorage.CreateEnsembleThenGetOrganization` | server/json-storage.ts:144-184 | under the same conditions the create succeeds, and looking up its organization then returns the previous ensembles of that organization plus the new one at the end |
| `JsonStorage.CreateOrganizationInEmptyStore` | server/json-storage.ts:104-128 | on a store with no files, creating an organization with a non-blank name writes a list holding only the normalised organization and leaves the ensembles file absent |
| `JsonStorage.CreateEnsembleInSingleOrganizationStore` | server/json-storage.ts:144-184 | on a store holding one organization and no ensemble file, creating one of its ensembles writes a list holding only the normalised ensemble |
| `JsonStorage.GetOrganizationWithOneEnsemble` | server/json-storage.ts:72-86 | an organization stored alone with one ensemble of its own reads back joined with exactly that ensemble |
| `JsonStorage.EmptyStoreScenario` | server/json-storage.ts:104-185 | on an empty store, creating an organization and then one of its ensembles yields exactly that organization joined with that ensemble |
| `JsonStorage.UnknownOrganizationScenario` | server/json-storage.ts:153-158 | with no stored organizations, a well-formed ensemble is refused as "organization not found" and nothing is written |
| `Routes.RegisterRoutes` | server/routes.ts:16-21 | registration fails exactly when the admin password is unset or empty, and otherwise uses that password |
| `Routes.RequireAuth` | server/routes.ts:24-29 | the gate passes exactly an authenticated session and otherwise answers 401 |
| `Routes.Login` | server/routes.ts:32-54 | a missing or empty password gives 400, a wrong one 401, and neither touches the session; 200 happens exactly for the secret and leaves the session authenticated |
| `Routes.Logout` | server/routes.ts:56-71 | after logout the session is not authenticated on every path; 500 happens exactly when a destroyable session fails to be destroyed |
| `Routes.Status` | server/routes.ts:73-77 | the status reports true exactly for an authenticated session, false otherwise |
| `Routes.ListOrganizations` | server/routes.ts:80-87 | 500 exactly when the read fails, otherwise 200 with the stored list |
| `Routes.OrganizationById` | server/routes.ts:89-102 | 404 exactly when storage finds nothing, 500 exactly when storage fails, otherwise 200 with the joined organization |
| `Routes.OrganizationBySlug` | server/routes.ts:104-117 | 404 exactly when storage finds nothing, 500 exactly when storage fails, otherwise 200 with the joined organization |
| `Routes.ListEnsembles` | server/routes.ts:120-127 | 500 exactly when the read fails, otherwise 200 with the stored list |
| `Routes.EnsemblesOfOrganization` | server/routes.ts:129-137 | 500 exactly when storage fails, including for an empty id, otherwise 200 with the organization's ensembles |
| `Routes.PostOrganization` | server/routes.ts:140-147 | an unauthenticated request gets 401 and leaves the store unchanged; any storage error, validation included, gets 500; 200 carries the created organization |
| `Routes.PostEnsemble` | server/routes.ts:149-156 | an unauthenticated request gets 401 and leaves the store unchanged; any storage error, a missing organization included, gets 500; 200 carries the created ensemble |
| `Routes.LoginThenLogoutGatesCreates` | server/routes.ts:32-71 | after logging in, a create passes the gate; after logging out again, it is refused with 401 and the store is unchanged |
| `Routes.OnlyTheSecretAuthenticates` | server/routes.ts:40-48 | a session becomes authenticated only through the exact secret |
| `Routes.MatchRoute` | server/routes.ts:32-156 | no PUT request matches any route; each create route matches exactly its POST path; id parameters are one non-empty path segment |
| `Routes.RoutedLookupNeverRejectsId` | server/routes.ts:89-92 | an id taken from a matched URL is never rejected as empty by storage |
| `Display.DisplayName` | client/src/components/organization-card.tsx:47 | the shown name is the short name when it is non-empty, and the full name otherwise |
| `Display.Highlights` | client/src/pages/directory.tsx:63-67 | for SATB, SA and TB the highlighted part letters are exactly the letters of the voice type; for any other value none is highlighted |
| `Display.HighlightCases` | client/src/pages/organization-detail.tsx:113-117 | SATB lights all four parts, SA only S and A, TB only T and B, and Child none |
| `Directory.Restore` | client/src/pages/directory.tsx:209-211 | a missing or empty stored value gives the default; anything else is used as stored |
| `Directory.RestoreFilters` | client/src/pages/directory.tsx:209-227 | with nothing stored the search is empty and every facet is "all" |
| `Directory.OrganizationMap` | client/src/pages/directory.tsx:262-269 | the keys are exactly the organization ids, and each maps to a listed organization with that id |
| `Directory.OrganizationMapIsLast` | client/src/pages/directory.tsx:264-266 | an id maps to the last organization in the list with that id, since later assignments overwrite earlier ones |
| `Directory.EnsembleCounts` | client/src/pages/directory.tsx:271-278 | an id has an entry exactly when some ensemble belongs to it, and the entry is the number of ensembles with that organization id |
| `Directory.Subtitle` | client/src/pages/directory.tsx:128-138 | the organization line is shown exactly when the count exceeds one, and shows the display name |
| `Directory.SubtitleShownIffSeveral` | client/src/pages/directory.tsx:505-511 | read through the computed counts, the subtitle appears exactly for organizations with more than one ensemble overall |
| `Directory.FilteredEnsembles` | client/src/pages/directory.tsx:280-343 | an ensemble is listed exactly when it is stored and passes the search and every facet, with its organization present; the list is ordered by organization name, then by ensemble name |
| `Directory.FilteredEnsemblesCounts` | client/src/pages/directory.tsx:281-327 | each visible ensemble appears exactly as often as it is stored and others not at all, so no duplicates are added |
| `Directory.NoFiltersListsAllWithOrganization` | client/src/pages/directory.tsx:286-326 | with an empty search and every facet on "all", the list holds exactly the ensembles whose organization exists |
| `Directory.OrphansNeverListed` | client/src/pages/directory.tsx:282-284 | an ensemble whose organization is missing is never listed |
| `Directory.AuditionFacet` | client/src/pages/directory.tsx:313-319 | "yes" keeps only "True", any other active value keeps only "False", and a null audition value is dropped whenever the facet is active |
| `Directory.RelaxingNeverHides` | client/src/pages/directory.tsx:286-326 | the search and facets combine with AND: clearing the search or setting any facet to "all" never hides a listed ensemble |
| `Directory.MapAgreesWithFind` | client/src/pages/directory.tsx:262-269 | with unique organization ids, the page's map and the store's first-match lookup give the same organization |
| `Directory.DuplicateIdsDisagree` | client/src/pages/directory.tsx:264-266 | with a duplicated id the map holds the last organization while `find` returns the first |
| `Directory.VoiceBadge` | client/src/pages/directory.tsx:57-68 | no badge for a missing, empty or "Child" voice type; otherwise the parts spelled by SATB, SA or TB, or no parts for other values |
| `OrganizationCard.Column` | client/src/components/organization-card.tsx:15 | a column has one entry per ensemble, read in order |
| `OrganizationCard.ColumnMembers` | client/src/components/organization-card.tsx:15-19 | a value is in a column exactly when some ensemble holds it |
| `OrganizationCard.DistinctValues` | client/src/components/organization-card.tsx:15-19 | the distinct list has no repeats and holds exactly the non-empty values some ensemble has |
| `OrganizationCard.FirstIndexOf` | client/src/components/organization-card.tsx:15-19 | the first position of a value holds it and no earlier position does |
| `OrganizationCard.FirstIndexOfExtend` | client/src/components/organization-card.tsx:15-19 | appending to a list does not move an existing first occurrence |
| `OrganizationCard.DistinctInFirstOccurrenceOrder` | client/src/components/organization-card.tsx:15-19 | the distinct values come in the order of their first occurrences |
| `OrganizationCard.Take` | client/src/components/organization-card.tsx:58 | `slice(0, n)` is the prefix of length n, or the whole list when shorter |
| `OrganizationCard.AuditionBadge` | client/src/components/organization-card.tsx:29-30 | the label is "Auditioned" and the variant "default" exactly for "True"; anything else is "Non-Auditioned" with "destructive" |
| `OrganizationCard.TruncateMission` | client/src/components/organization-card.tsx:49-53 | a mission over 150 characters becomes its first 150 characters and "..."; a shorter one is unchanged |
| `OrganizationCard.TruncateMissionIdempotent` | client/src/components/organization-card.tsx:51-53 | shortening a shortened mission changes nothing |
| `OrganizationCard.DirectorLine` | client/src/components/organization-card.tsx:96-101 | no line without directors; one or two directors are all listed, joined by ", " |
| `OrganizationCard.DirectorLineCount` | client/src/components/organization-card.tsx:100-101 | with more than two directors, the line names the first two and then a number that reads back as the count of the rest |
| `OrganizationCard.CardOf` | client/src/components/organization-card.tsx:43-123 | the title is the display name; the mission is shown exactly when set, shortened; at most two ensemble-type badges and at most one each of audition, voice-type and pay-level badges |
| `OrganizationCard.BadgeValues` | client/src/components/organization-card.tsx:15-19 | each capped badge list holds distinct, non-empty values some ensemble has, and it is non-empty exactly when some ensemble has a value |
| `OrganizationCard.CardShowsEnsembleValues` | client/src/components/organization-card.tsx:57-104 | every badge shows a value one of the ensembles has, without repeats; the audition badge and the director line appear exactly when some ensemble sets the field |
| `OrganizationDetail.Restrictions` | client/src/pages/organization-detail.tsx:321-324 | a restriction that is null, empty or "None" is dropped; the rest are joined with ", " in age-then-other order; with none left the line reads "None" |
| `OrganizationDetail.RestrictionsNoneIff` | client/src/pages/organization-detail.tsx:321-324 | the line reads "None" exactly when neither restriction counts |
| `OrganizationDetail.VoiceDisplay` | client/src/pages/organization-detail.tsx:104-117 | no display for a falsy voice type; the Child label exactly for "Child"; otherwise the part grid, lit for SATB, SA and TB and dark for other values |
| `OrganizationDetail.VoiceDisplaysAgree` | client/src/pages/organization-detail.tsx:104-117 | the detail page's part grid agrees with the directory's badge, the pages differing only in the Child label |
| `OrganizationDetail.AuditionLabel` | client/src/pages/organization-detail.tsx:272-275 | the badge appears exactly when the value is set; it reads "Auditioned" exactly for "True" and "Non-Auditioned" otherwise |
| `OrganizationDetail.SectionOf` | client/src/pages/organization-detail.tsx:258-325 | each ensemble section shows its name, audition label, voice display and restrictions line; the director shows "" exactly when unset |
| `OrganizationDetail.PageOf` | client/src/pages/organization-detail.tsx:248-256 | the header count is the number of joined ensembles; the empty message shows exactly when there are none; one section per ensemble, in order |
| `OrganizationDetail.DetailCountMatchesDirectory` | client/src/pages/organization-detail.tsx:16-19 | the page loads its organization by slug; the loaded organization has that slug, and the header count (line 248) equals the count the directory computes for its id |
| `Admin.ResetOrgForm` | client/src/pages/admin.tsx:69-83 | every organization field is "", nothing is selected and edit mode is off; the ensemble side is untouched |
| `Admin.PopulateOrgForm` | client/src/pages/admin.tsx:108-122 | each field shows the organization's value, or "" when null or empty; the organization is selected and edit mode is on |
| `Admin.SelectOrganization` | client/src/pages/admin.tsx:394-403 | "new" resets the form; a known id loads exactly the first organization with that id, as `populateOrgForm` would, in edit mode; an unknown id changes nothing |
| `Admin.SelectListedOrganization` | client/src/pages/admin.tsx:394-403 | with unique ids, selecting any listed organization loads exactly that organization into the form |
| `Admin.OrganizationOptions` | client/src/pages/admin.tsx:410-411 | the selector lists every organization, sorted by display name |
| `Admin.ResetEnsembleForm` | client/src/pages/admin.tsx:85-106 | every ensemble field is "", nothing is selected and edit mode is off |
| `Admin.PopulateEnsembleForm` | client/src/pages/admin.tsx:124-145 | every field shows the ensemble's value or "", the organization id is copied, and the ensemble is selected in edit mode |
| `Admin.OrganizationNameOf` | client/src/pages/admin.tsx:555-560 | the name is that of the first organization with the id, and "" when no organization has the id |
| `Admin.ChosenOrganizationNamed` | client/src/pages/admin.tsx:553-562 | with unique ids, choosing a listed organization in the ensemble tab fills in exactly that organization's name |
| `Admin.ChangeEnsembleOrganization` | client/src/pages/admin.tsx:553-562 | the form takes the chosen id and that organization's name or ""; every other field is kept; no ensemble is selected and edit mode is off |
| `Admin.SelectEnsemble` | client/src/pages/admin.tsx:584-599 | "new" clears the ensemble form but keeps the chosen organization and its name; a known id loads exactly the first ensemble with that id, as `populateEnsembleForm` would; an unknown id changes nothing |
| `Admin.SelectListedEnsemble` | client/src/pages/admin.tsx:594-599 | with unique ids, selecting any listed ensemble loads exactly that ensemble into the form |
| `Admin.EnsembleOptions` | client/src/pages/admin.tsx:607-609 | the selector lists the ensembles of the form's organization, each as often as it is stored and no other, sorted by name |
| `Admin.SwitchTab` | client/src/pages/admin.tsx:350-367 | switching tab resets the target tab's form and selection and leaves edit mode; the other tab's form and selected id are kept |
| `Admin.SwitchTabSubmitsCreate` | client/src/pages/admin.tsx:206-252 | after switching to either tab, both the organization and the ensemble submit are POSTs that reach the create routes, since edit mode is one shared flag |
| `Admin.OrgBody` | client/src/pages/admin.tsx:215-219 | the request body carries every form field as its string, so an empty field is sent as "" and never as null |
| `Admin.EnsembleBody` | client/src/pages/admin.tsx:248-252 | the ensemble request body carries every form field as its string, empty ones as "", and no description |
| `Admin.OrgSubmitRequest` | client/src/pages/admin.tsx:206-219 | edit mode sends PUT to the selected organization's URL; otherwise POST to the collection |
| `Admin.EnsembleSubmitRequest` | client/src/pages/admin.tsx:239-252 | edit mode sends PUT to the selected ensemble's URL; otherwise POST to the collection |
| `Admin.SubmitReachesHandler` | client/src/pages/admin.tsx:209-213 | a create-mode submit reaches the server's create route; an edit-mode submit reaches no route, since the server has no PUT handler |
| `Admin.CreatedHasStoredShape` | server/json-storage.ts:112-123 | every organization the store creates has null or non-empty optional fields, `goals` apart |
| `Admin.FormRoundTrip` | client/src/pages/admin.tsx:108-122 | the body built from a loaded organization form normalises back to the organization, with a null `goals` becoming ""; the page sends that body as a PUT, which no route accepts |
| `Admin.EnsembleFormRoundTrip` | client/src/pages/admin.tsx:124-145 | the body built from a loaded ensemble form normalises back to the ensemble, with the description dropped |
| `Admin.GoalsBecomeEmpty` | client/src/pages/admin.tsx:118 | for an organization without goals, the body built from its loaded form carries goals "" |
| `SubmitGroup.Set` | client/src/pages/submit-group.tsx:48-52 | setting a field changes that field to the value and no other |
| `SubmitGroup.AddEnsemble` | client/src/pages/submit-group.tsx:32-42 | one draft is appended with the clock reading as id and every other field empty; existing drafts are unchanged |
| `SubmitGroup.RemoveEnsemble` | client/src/pages/submit-group.tsx:44-46 | exactly the drafts with another id remain |
| `SubmitGroup.RemoveEnsembleCounts` | client/src/pages/submit-group.tsx:44-46 | every other draft is kept as often as it occurred |
| `SubmitGroup.RemoveEnsembleAppend` | client/src/pages/submit-group.tsx:44-46 | removal works piecewise over a concatenation, so survivors keep their order |
| `SubmitGroup.RemoveUndoesAdd` | client/src/pages/submit-group.tsx:32-46 | removing the draft just added restores the list, when its id was new |
| `SubmitGroup.SameTickAddsShareId` | client/src/pages/submit-group.tsx:34 | two drafts added at the same clock reading share an id, and removing one removes both |
| `SubmitGroup.UpdateEnsemble` | client/src/pages/submit-group.tsx:48-52 | only the chosen field of drafts with the id changes; other drafts and fields are unchanged and the length is kept |
| `SubmitGroup.RemoveAfterUpdate` | client/src/pages/submit-group.tsx:44-52 | editing a field other than the id and then removing the draft is the same as removing it at once |
| `SubmitGroup.StartSubmit` | client/src/pages/submit-group.tsx:54-56 | submitting marks the form busy exactly when it is on screen, not already busy and every required input (lines 140-200, 257-275) is filled, leaving the browser's email and URL syntax checks aside (see below); otherwise nothing changes; every entered field, the ensemble list and the success flag are kept |
| `SubmitGroup.StartSubmitIdempotent` | client/src/pages/submit-group.tsx:312-318 | a second press while busy does nothing, since the submit button is disabled |
| `SubmitGroup.AddedDraftBlocksSubmit` | client/src/pages/submit-group.tsx:257-275 | a freshly added draft row has empty required name and director, so the form cannot be submitted |
| `SubmitGroup.CompleteSubmit` | client/src/pages/submit-group.tsx:58-71 | after submission the success view shows, nothing is busy, every field is "" and the ensemble list is empty |
| `SubmitGroup.CompleteSubmitForgetsInput` | client/src/pages/submit-group.tsx:54-71 | a completed submission ends in the same form whatever was entered |
| `SubmitGroup.SubmitAnother` | client/src/pages/submit-group.tsx:91 | "Submit Another Group" leaves the success view and keeps every other field |
| `SubmitGroup.SubmitRoundReturnsToInitial` | client/src/pages/submit-group.tsx:22-30 | a successful submit, its completion and "Submit Another Group" bring the page back to its initial form, which cannot be submitted as it stands |

## Left out

- File-system effects are not modelled: creating the data directory, the JSON text encoding, and write failures (server/json-storage.ts:33-40, 59-66). A write is assumed to succeed, and each file is an abstract state: missing, unreadable, contents with their parse, or written records. A successful parse is assumed to yield a list of records: contents that are valid JSON but not such a list (such as `{}`), which the source returns unchecked (server/json-storage.ts:48) and which then makes the lookups throw, are not represented.
- Concurrency is not modelled. Interleaved read-modify-write between requests is out of scope; each operation is one atomic step.
- `randomUUID` and `Date.now` are not modelled. The fresh id and the clock reading are parameters, and freshness appears only as a hypothesis of the invariant lemmas.
- Unicode case mapping and locale collation are not modelled. Lower-casing is ASCII and `localeCompare` is code-point order.
- `OrganizationCard.TruncateMission`: measures length in code points rather than UTF-16 code units, because strings are sequences of characters.
- Route matching covers exact paths only. Express's case-insensitive and trailing-slash matching is not modelled.
- `Routes.MatchRoute`: passes the raw path segment as the `:id` parameter, whereas Express percent-decodes it (`a%2Fb` arrives as `a/b`), because no URL decoding is modelled.
- The admin and directory pages sort the cached organization list in place (client/src/pages/admin.tsx:411, client/src/pages/directory.tsx:422). With duplicate ids this changes which organization a later `find` or the last-wins map picks; the model treats each lookup's list as given.
- The `typeof id !== 'string'` guards are not modelled, because ids are strings by type. Keys that collide with `Object.prototype` in the directory's `Record` lookups are not modelled either.
- Extra request-body keys merged in by object spread are not modelled, and neither are non-string passwords.
- The login handler's 500 branch (server/routes.ts:51-53) is not modelled, because nothing in the modelled code throws there.
- Messages, alerts, CSS class tables, badge colours other than the audition variant, rendering, `fetch`, `useQuery` and the page reload after a successful admin submit are not modelled.
- Writing the filter state back to `localStorage` is not modelled; only the defaults when reading are.
- `SubmitGroup.StartSubmit`: the browser's syntax checks of the contact email (`type="email"`, client/src/pages/submit-group.tsx:197) and of the website (`type="url"`, client/src/pages/submit-group.tsx:152) are not modelled, because no address or URL grammar is; the model starts submissions with a malformed email or a non-empty website that is not an absolute URL (such as `choir.org`), which the browser refuses.
- `Admin.OrgSubmitRequest` and `Admin.EnsembleSubmitRequest`: the browser's `required` check on the name inputs (client/src/pages/admin.tsx:429, 628) and the ensemble inputs and submit button disabled until an organization is chosen (client/src/pages/admin.tsx:629, 837) are not modelled, so these functions also build requests the page never sends. The server still rejects a blank name or organization id, which `JsonStorage.CreateOrganization` and `JsonStorage.CreateEnsemble` state.
- `Seqs.Sort`: the contract states permutation and order but not stability, although the insertion sort is stable.
- Update operations are not modelled: the admin page sends PUT requests that the server does not route, and the store has no update.
- The contact, about and home pages, the header, footer, hero section, quick filters, routing table, scroll hook and database configuration are not part of this model. They hold no logic beyond static UI or configuration.

=== FILE: admin.dfy ===
/** The admin page's form state: the organization and ensemble forms, the
    selected records, the edit-mode flag shared by both tabs, and the
    transitions the page's handlers make. `fetch`, messages and the page
    reload after a successful submit are not modelled; a submit is
    described by the request it would send. */
module Admin {
  import opened Wrappers
  import opened Text
  import opened Seqs
  import opened Schema
  import opened Display
  import JsonStorage
  import Routes

  // ---------------------------------------------------------------------
  // State
  // ---------------------------------------------------------------------

  datatype OrgForm = OrgForm(
    name: string,
    shortName: string,
    urlSlug: string,
    website: string,
    socialMedia: string,
    email: string,
    religiousAffiliation: string,
    missionStatement: string,
    goals: string)

  datatype EnsembleForm = EnsembleForm(
    name: string,
    shortName: string,
    organizationId: string,
    organizationName: string,
    website: string,
    director: string,
    ageGroup: string,
    voiceType: string,
    ensembleType: string,
    location: string,
    auditioned: string,
    payLevel: string,
    ageRestrictions: string,
    otherRestrictions: string,
    season: string,
    rehearsalDetails: string)

  datatype Tab = OrganizationTab | EnsembleTab

  datatype AdminState = AdminState(
    activeTab: Tab,
    orgForm: OrgForm,
    ensembleForm: EnsembleForm,
    selectedOrgId: string,
    selectedEnsembleId: string,
    isEditMode: bool)

  predicate OrgFormBlank(f: OrgForm) {
    f.name == "" && f.shortName == "" && f.urlSlug == "" && f.website == ""
    && f.socialMedia == "" && f.email == "" && f.religiousAffiliation == ""
    && f.missionStatement == "" && f.goals == ""
  }

  predicate EnsembleFormBlankExceptOrganization(f: EnsembleForm) {
    f.name == "" && f.shortName == "" && f.website == "" && f.director == ""
    && f.ageGroup == "" && f.voiceType == "" && f.ensembleType == "" && f.location == ""
    && f.auditioned == "" && f.payLevel == "" && f.ageRestrictions == ""
    && f.otherRestrictions == "" && f.season == "" && f.rehearsalDetails == ""
  }

  predicate EnsembleFormBlank(f: EnsembleForm) {
    EnsembleFormBlankExceptOrganization(f) && f.organizationId == "" && f.organizationName == ""
  }

  const EmptyOrgForm := OrgForm("", "", "", "", "", "", "", "", "")
  const EmptyEnsembleForm := EnsembleForm("", "", "", "", "", "", "", "", "", "", "", "", "", "", "", "")

  /** The page as it first renders. */
  const Initial := AdminState(OrganizationTab, EmptyOrgForm, EmptyEnsembleForm, "", "", false)

  // ---------------------------------------------------------------------
  // Organization tab
  // ---------------------------------------------------------------------

  /** `resetOrgForm`: every field empty, no selection, create mode; the
      tab and the ensemble side are untouched. */
  function ResetOrgForm(st: AdminState): (r: AdminState)
    ensures OrgFormBlank(r.orgForm) && r.selectedOrgId == "" && !r.isEditMode
    ensures r.activeTab == st.activeTab && r.ensembleForm == st.ensembleForm
    ensures r.selectedEnsembleId == st.selectedEnsembleId
  {
    st.(orgForm := EmptyOrgForm, selectedOrgId := "", isEditMode := false)
  }

  /** `populateOrgForm`: each form field shows the organization's value, or
      "" when that is null or empty; the organization is selected and the
      page enters edit mode. */
  function PopulateOrgForm(st: AdminState, org: Organization): (r: AdminState)
    ensures r.orgForm.name == org.name
    ensures r.orgForm.shortName == OrEmpty(org.shortName) && r.orgForm.urlSlug == OrEmpty(org.urlSlug)
    ensures r.orgForm.website == OrEmpty(org.website) && r.orgForm.socialMedia == OrEmpty(org.socialMedia)
    ensures r.orgForm.email == OrEmpty(org.email)
    ensures r.orgForm.religiousAffiliation == OrEmpty(org.religiousAffiliation)
    ensures r.orgForm.missionStatement == OrEmpty(org.missionStatement)
    ensures r.orgForm.goals == OrEmpty(org.goals)
    ensures r.selectedOrgId == org.id && r.isEditMode
    ensures r.activeTab == st.activeTab && r.ensembleForm == st.ensembleForm
    ensures r.selectedEnsembleId == st.selectedEnsembleId
  {
    var f := OrgForm(org.name, OrEmpty(org.shortName), OrEmpty(org.urlSlug), OrEmpty(org.website),
                     OrEmpty(org.socialMedia), OrEmpty(org.email), OrEmpty(org.religiousAffiliation),
                     OrEmpty(org.missionStatement), OrEmpty(org.goals));
    st.(orgForm := f, selectedOrgId := org.id, isEditMode := true)
  }

  function HasId(id: string): Organization -> bool {
    (o: Organization) => o.id == id
  }

  /** `orgs[i]` is the organization `orgs.find(o => o.id === id)` returns. */
  predicate FirstOrganizationWithId(orgs: seq<Organization>, i: int, id: string) {
    0 <= i < |orgs| && orgs[i].id == id && forall j :: 0 <= j < i ==> orgs[j].id != id
  }

  /** Every first organization with the id is the one `find` returns. */
  lemma FindFirstOrganization(orgs: seq<Organization>, id: string)
    ensures forall i :: FirstOrganizationWithId(orgs, i, id) ==> Find(orgs, HasId(id)) == Some(orgs[i])
  {
    forall i | FirstOrganizationWithId(orgs, i, id) ensures Find(orgs, HasId(id)) == Some(orgs[i]) {
      FindIsFirst(orgs, HasId(id), i);
    }
  }

  /** The organization selector: "new" resets the form, a known id loads
      the first organization with that id, an unknown id changes nothing. */
  function SelectOrganization(st: AdminState, orgs: seq<Organization>, value: string): (r: AdminState)
    ensures value == "new" ==> OrgFormBlank(r.orgForm) && r.selectedOrgId == "" && !r.isEditMode
    ensures value != "new" && (forall o :: o in orgs ==> o.id != value) ==> r == st
    ensures value != "new" && (exists o :: o in orgs && o.id == value) ==>
      && r.isEditMode && r.selectedOrgId == value
      && exists o :: o in orgs && o.id == value && r.orgForm.name == o.name
    ensures value != "new" ==>
      forall i :: FirstOrganizationWithId(orgs, i, value) ==> r == PopulateOrgForm(st, orgs[i])
    ensures r.ensembleForm == st.ensembleForm && r.activeTab == st.activeTab
  {
    if value == "new" then ResetOrgForm(st)
    else
      FindFirstOrganization(orgs, value);
      match Find(orgs, HasId(value))
      case None => st
      case Some(org) => PopulateOrgForm(st, org)
  }

  /** The options of the organization selector, sorted by displayed name. */
  function OrganizationOptions(orgs: seq<Organization>): (r: seq<Organization>)
    ensures multiset(r) == multiset(orgs)
    ensures forall i, j :: 0 <= i < j < |r| ==> StrCmp(DisplayName(r[i]), DisplayName(r[j])) <= 0
  {
    var r := Sort(orgs, (o: Organization) => Key(DisplayName(o), ""));
    assert forall i, j :: 0 <= i < j < |r| ==> KeyLe(Key(DisplayName(r[i]), ""), Key(DisplayName(r[j]), ""));
    forall i, j | 0 <= i < j < |r| ensures StrCmp(DisplayName(r[i]), DisplayName(r[j])) <= 0 {
      assert KeyLe(Key(DisplayName(r[i]), ""), Key(DisplayName(r[j]), ""));
      StrCmpZeroIff(DisplayName(r[i]), DisplayName(r[j]));
    }
    r
  }

  // ---------------------------------------------------------------------
  // Ensemble tab
  // ---------------------------------------------------------------------

  /** `resetEnsembleForm`: every field empty, no selection, create mode. */
  function ResetEnsembleForm(st: AdminState): (r: AdminState)
    ensures EnsembleFormBlank(r.ensembleForm) && r.selectedEnsembleId == "" && !r.isEditMode
    ensures r.activeTab == st.activeTab && r.orgForm == st.orgForm && r.selectedOrgId == st.selectedOrgId
  {
    st.(ensembleForm := EmptyEnsembleForm, selectedEnsembleId := "", isEditMode := false)
  }

  /** `populateEnsembleForm`: each field shows the ensemble's value or "";
      `organizationId` is copied as is; the page enters edit mode. */
  function PopulateEnsembleForm(st: AdminState, e: Ensemble): (r: AdminState)
    ensures r.ensembleForm.name == e.name && r.ensembleForm.organizationId == e.organizationId
    ensures r.ensembleForm.shortName == OrEmpty(e.shortName)
    ensures r.ensembleForm.organizationName == OrEmpty(e.organizationName)
    ensures r.ensembleForm.website == OrEmpty(e.website)
    ensures r.ensembleForm.director == OrEmpty(e.director) && r.ensembleForm.ageGroup == OrEmpty(e.ageGroup)
    ensures r.ensembleForm.voiceType == OrEmpty(e.voiceType)
    ensures r.ensembleForm.ensembleType == OrEmpty(e.ensembleType)
    ensures r.ensembleForm.location == OrEmpty(e.location)
    ensures r.ensembleForm.auditioned == OrEmpty(e.auditioned) && r.ensembleForm.payLevel == OrEmpty(e.payLevel)
    ensures r.ensembleForm.ageRestrictions == OrEmpty(e.ageRestrictions)
    ensures r.ensembleForm.otherRestrictions == OrEmpty(e.otherRestrictions)
    ensures r.ensembleForm.season == OrEmpty(e.season)
    ensures r.ensembleForm.rehearsalDetails == OrEmpty(e.rehearsalDetails)
    ensures r.selectedEnsembleId == e.id && r.isEditMode
    ensures r.activeTab == st.activeTab && r.orgForm == st.orgForm && r.selectedOrgId == st.selectedOrgId
  {
    var f := EnsembleForm(e.name, OrEmpty(e.shortName), e.organizationId, OrEmpty(e.organizationName),
                          OrEmpty(e.website), OrEmpty(e.director), OrEmpty(e.ageGroup), OrEmpty(e.voiceType),
                          OrEmpty(e.ensembleType), OrEmpty(e.location), OrEmpty(e.auditioned),
                          OrEmpty(e.payLevel), OrEmpty(e.ageRestrictions), OrEmpty(e.otherRestrictions),
                          OrEmpty(e.season), OrEmpty(e.rehearsalDetails));
    st.(ensembleForm := f, selectedEnsembleId := e.id, isEditMode := true)
  }

  /** `selectedOrg?.name || ""` for the first organization with `id`. */
  function OrganizationNameOf(orgs: seq<Organization>, id: string): (r: string)
    ensures (forall o :: o in orgs ==> o.id != id) ==> r == ""
    ensures r != "" ==> exists o :: o in orgs && o.id == id && o.name == r
    ensures forall i :: FirstOrganizationWithId(orgs, i, id) ==> r == orgs[i].name
  {
    match Find(orgs, HasId(id))
    case None => ""
    case Some(o) => o.name
  }

  /** Choosing an organization in the ensemble tab: the form takes the
      chosen id and that organization's name (or ""), keeps every other
      field, and leaves edit mode with no ensemble selected. */
  function ChangeEnsembleOrganization(st: AdminState, orgs: seq<Organization>, value: string): (r: AdminState)
    ensures r.ensembleForm.organizationId == value
    ensures r.ensembleForm.organizationName == OrganizationNameOf(orgs, value)
    ensures r.ensembleForm == st.ensembleForm.(organizationId := value, organizationName := r.ensembleForm.organizationName)
    ensures r.selectedEnsembleId == "" && !r.isEditMode
    ensures r.orgForm == st.orgForm && r.selectedOrgId == st.selectedOrgId && r.activeTab == st.activeTab
  {
    st.(ensembleForm := st.ensembleForm.(organizationId := value,
                                         organizationName := OrganizationNameOf(orgs, value)),
        selectedEnsembleId := "",
        isEditMode := false)
  }

  function EnsembleHasId(id: string): Ensemble -> bool {
    (e: Ensemble) => e.id == id
  }

  /** `ens[i]` is the ensemble `ensembles.find(e => e.id === id)` returns. */
  predicate FirstEnsembleWithId(ens: seq<Ensemble>, i: int, id: string) {
    0 <= i < |ens| && ens[i].id == id && forall j :: 0 <= j < i ==> ens[j].id != id
  }

  /** The ensemble selector: "new" resets the ensemble form but keeps the
      chosen organization; a known id loads that ensemble; an unknown id
      changes nothing. */
  function SelectEnsemble(st: AdminState, orgs: seq<Organization>, ens: seq<Ensemble>, value: string): (r: AdminState)
    ensures value == "new" ==>
      && EnsembleFormBlankExceptOrganization(r.ensembleForm)
      && r.ensembleForm.organizationId == st.ensembleForm.organizationId
      && r.ensembleForm.organizationName == OrganizationNameOf(orgs, st.ensembleForm.organizationId)
      && r.selectedEnsembleId == "" && !r.isEditMode
    ensures value != "new" && (forall e :: e in ens ==> e.id != value) ==> r == st
    ensures value != "new" && (exists e :: e in ens && e.id == value) ==>
      r.isEditMode && r.selectedEnsembleId == value
    ensures value != "new" ==>
      forall i :: FirstEnsembleWithId(ens, i, value) ==> r == PopulateEnsembleForm(st, ens[i])
    ensures r.orgForm == st.orgForm && r.activeTab == st.activeTab
  {
    if value == "new" then
      var cleared := ResetEnsembleForm(st);
      cleared.(ensembleForm := cleared.ensembleForm.(
        organizationId := st.ensembleForm.organizationId,
        organizationName := OrganizationNameOf(orgs, st.ensembleForm.organizationId)))
    else
      match Find(ens, EnsembleHasId(value))
      case None => st
      case Some(e) => PopulateEnsembleForm(st, e)
  }

  /** The ensembles offered for editing: exactly those of the form's
      organization, sorted by name. */
  function EnsembleOptions(ens: seq<Ensemble>, form: EnsembleForm): (r: seq<Ensemble>)
    ensures forall e :: e in r <==> e in ens && e.organizationId == form.organizationId
    ensures |r| == |JsonStorage.EnsemblesOf(ens, form.organizationId)|
    ensures multiset(r) == multiset(JsonStorage.EnsemblesOf(ens, form.organizationId))
    ensures forall i, j :: 0 <= i < j < |r| ==> StrCmp(r[i].name, r[j].name) <= 0
  {
    var mine := JsonStorage.EnsemblesOf(ens, form.organizationId);
    var r := Sort(mine, (e: Ensemble) => Key(e.name, ""));
    assert forall e :: e in r <==> e in mine by {
      forall e ensures e in r <==> e in mine { SortSameElements(mine, (e: Ensemble) => Key(e.name, ""), e); }
    }
    assert |r| == |multiset(r)| == |multiset(mine)| == |mine|;
    forall i, j | 0 <= i < j < |r| ensures StrCmp(r[i].name, r[j].name) <= 0 {
      assert KeyLe(Key(r[i].name, ""), Key(r[j].name, ""));
      StrCmpZeroIff(r[i].name, r[j].name);
    }
    r
  }

  /** The tab buttons: switching tab resets the target tab's form and
      leaves the other tab's form and selection alone. */
  function SwitchTab(st: AdminState, tab: Tab): (r: AdminState)
    ensures r.activeTab == tab && !r.isEditMode
    ensures tab == OrganizationTab ==>
      OrgFormBlank(r.orgForm) && r.selectedOrgId == ""
      && r.ensembleForm == st.ensembleForm && r.selectedEnsembleId == st.selectedEnsembleId
    ensures tab == EnsembleTab ==>
      EnsembleFormBlank(r.ensembleForm) && r.selectedEnsembleId == ""
      && r.orgForm == st.orgForm && r.selectedOrgId == st.selectedOrgId
  {
    match tab
    case OrganizationTab => ResetOrgForm(st.(activeTab := tab))
    case EnsembleTab => ResetEnsembleForm(st.(activeTab := tab))
  }

  // ---------------------------------------------------------------------
  // Submitting
  // ---------------------------------------------------------------------

  /** The request body, `JSON.stringify(orgForm)`: every field is sent as
      the form's string, empty ones as "" and never as null. */
  function OrgBody(f: OrgForm): (n: NewOrganization)
    ensures n.name == f.name && n.shortName == Some(f.shortName) && n.urlSlug == Some(f.urlSlug)
    ensures n.website == Some(f.website) && n.socialMedia == Some(f.socialMedia)
    ensures n.email == Some(f.email) && n.religiousAffiliation == Some(f.religiousAffiliation)
    ensures n.missionStatement == Some(f.missionStatement) && n.goals == Some(f.goals)
  {
    NewOrganization(f.name, Some(f.shortName), Some(f.urlSlug), Some(f.website), Some(f.socialMedia),
                    Some(f.email), Some(f.religiousAffiliation), Some(f.missionStatement), Some(f.goals))
  }

  /** The request body, `JSON.stringify(ensembleForm)`: every form field is
      sent as its string, empty ones as ""; the form has no description
      field, so the body carries none. */
  function EnsembleBody(f: EnsembleForm): (n: NewEnsemble)
    ensures n.name == f.name && n.organizationId == f.organizationId && n.description.None?
    ensures n.shortName == Some(f.shortName) && n.organizationName == Some(f.organizationName)
    ensures n.website == Some(f.website) && n.director == Some(f.director)
    ensures n.ageGroup == Some(f.ageGroup) && n.voiceType == Some(f.voiceType)
    ensures n.ensembleType == Some(f.ensembleType) && n.location == Some(f.location)
    ensures n.auditioned == Some(f.auditioned) && n.payLevel == Some(f.payLevel)
    ensures n.ageRestrictions == Some(f.ageRestrictions) && n.otherRestrictions == Some(f.otherRestrictions)
    ensures n.season == Some(f.season) && n.rehearsalDetails == Some(f.rehearsalDetails)
  {
    NewEnsemble(f.name, Some(f.shortName), f.organizationId, Some(f.organizationName), Some(f.website),
                Some(f.director), Some(f.ageGroup), Some(f.voiceType), Some(f.ensembleType),
                Some(f.location), Some(f.auditioned), Some(f.payLevel), Some(f.ageRestrictions),
                Some(f.otherRestrictions), Some(f.season), Some(f.rehearsalDetails), None)
  }

  datatype Request<B> = Request(verb: Routes.Method, path: string, body: B)

  /** The organization submit: PUT to the selected organization's URL in
      edit mode, POST to the collection otherwise. */
  function OrgSubmitRequest(st: AdminState): (r: Request<NewOrganization>)
    ensures r.verb == Routes.PUT <==> st.isEditMode
    ensures r.verb != Routes.PUT ==> r.verb == Routes.POST && r.path == "/api/admin/organizations"
    ensures st.isEditMode ==> r.path == "/api/admin/organizations/" + st.selectedOrgId
    ensures r.body == OrgBody(st.orgForm)
  {
    if st.isEditMode then Request(Routes.PUT, "/api/admin/organizations/" + st.selectedOrgId, OrgBody(st.orgForm))
    else Request(Routes.POST, "/api/admin/organizations", OrgBody(st.orgForm))
  }

  /** The ensemble submit, on the same pattern. */
  function EnsembleSubmitRequest(st: AdminState): (r: Request<NewEnsemble>)
    ensures r.verb == Routes.PUT <==> st.isEditMode
    ensures r.verb != Routes.PUT ==> r.verb == Routes.POST && r.path == "/api/admin/ensembles"
    ensures st.isEditMode ==> r.path == "/api/admin/ensembles/" + st.selectedEnsembleId
    ensures r.body == EnsembleBody(st.ensembleForm)
  {
    if st.isEditMode then Request(Routes.PUT, "/api/admin/ensembles/" + st.selectedEnsembleId, EnsembleBody(st.ensembleForm))
    else Request(Routes.POST, "/api/admin/ensembles", EnsembleBody(st.ensembleForm))
  }

  /** A create-mode submit reaches the server's create handler; an
      edit-mode submit reaches no handler at all, since the server
      registers no PUT route. */
  lemma SubmitReachesHandler(st: AdminState)
    ensures var r := OrgSubmitRequest(st);
      Routes.MatchRoute(r.verb, r.path) == if st.isEditMode then None else Some(Routes.CreateOrganizationRoute)
    ensures var r := EnsembleSubmitRequest(st);
      Routes.MatchRoute(r.verb, r.path) == if st.isEditMode then None else Some(Routes.CreateEnsembleRoute)
  {
  }

  /** Edit mode is one flag shared by both tabs, so after switching to
      either tab both forms submit as creates that reach the server's
      create handlers, even a form left loaded on the other tab. */
  lemma SwitchTabSubmitsCreate(st: AdminState, tab: Tab)
    ensures var r := OrgSubmitRequest(SwitchTab(st, tab));
      r.verb == Routes.POST && Routes.MatchRoute(r.verb, r.path) == Some(Routes.CreateOrganizationRoute)
    ensures var r := EnsembleSubmitRequest(SwitchTab(st, tab));
      r.verb == Routes.POST && Routes.MatchRoute(r.verb, r.path) == Some(Routes.CreateEnsembleRoute)
  {
    SubmitReachesHandler(SwitchTab(st, tab));
  }

  // ---------------------------------------------------------------------
  // Round trip through the form
  // ---------------------------------------------------------------------

  /** The shape of an organization as the store writes it: every optional
      field but `goals` is null or non-empty. */
  predicate StoredShape(o: Organization) {
    && JsonStorage.NullIfFalsy(o.shortName, o.shortName)
    && JsonStorage.NullIfFalsy(o.urlSlug, o.urlSlug)
    && JsonStorage.NullIfFalsy(o.website, o.website)
    && JsonStorage.NullIfFalsy(o.socialMedia, o.socialMedia)
    && JsonStorage.NullIfFalsy(o.email, o.email)
    && JsonStorage.NullIfFalsy(o.religiousAffiliation, o.religiousAffiliation)
    && JsonStorage.NullIfFalsy(o.missionStatement, o.missionStatement)
  }

  /** Every organization the store creates has the stored shape. */
  lemma CreatedHasStoredShape(n: NewOrganization, id: string)
    ensures StoredShape(JsonStorage.NormalizeOrganization(n, id))
  {
  }

  /** The body built from a loaded organization form normalises back to the
      organization, except that a null `goals` comes back as "": `goals` is
      sent as a string and the store does not normalise it. A loaded form is
      in edit mode, so the page itself sends this body as a PUT, which no
      route accepts. */
  lemma {:induction false} FormRoundTrip(st: AdminState, org: Organization)
    requires StoredShape(org)
    ensures JsonStorage.NormalizeOrganization(OrgBody(PopulateOrgForm(st, org).orgForm), org.id)
            == org.(goals := Some(OrEmpty(org.goals)))
    ensures var r := OrgSubmitRequest(PopulateOrgForm(st, org));
            r.verb == Routes.PUT && Routes.MatchRoute(r.verb, r.path).None?
  {
    OrNullOrEmptyRoundTrip(org.shortName, "");
    OrNullOrEmptyRoundTrip(org.urlSlug, "");
    OrNullOrEmptyRoundTrip(org.website, "");
    OrNullOrEmptyRoundTrip(org.socialMedia, "");
    OrNullOrEmptyRoundTrip(org.email, "");
    OrNullOrEmptyRoundTrip(org.religiousAffiliation, "");
    OrNullOrEmptyRoundTrip(org.missionStatement, "");
    SubmitReachesHandler(PopulateOrgForm(st, org));
  }

  /** A concrete organization without goals: the body from its loaded form
      carries goals "". */
  lemma GoalsBecomeEmpty()
    ensures
      var org := Organization("o1", "Chorale", None, None, None, None, None, None, None, None);
      JsonStorage.NormalizeOrganization(OrgBody(PopulateOrgForm(Initial, org).orgForm), "o1").goals == Some("")
  {
    var org := Organization("o1", "Chorale", None, None, None, None, None, None, None, None);
    FormRoundTrip(Initial, org);
  }

  /** The shape of an ensemble as the store writes it: every optional field
      is null or non-empty. */
  predicate EnsembleStoredShape(e: Ensemble) {
    && JsonStorage.NullIfFalsy(e.shortName, e.shortName)
    && JsonStorage.NullIfFalsy(e.organizationName, e.organizationName)
    && JsonStorage.NullIfFalsy(e.website, e.website)
    && JsonStorage.NullIfFalsy(e.director, e.director)
    && JsonStorage.NullIfFalsy(e.ageGroup, e.ageGroup)
    && JsonStorage.NullIfFalsy(e.voiceType, e.voiceType)
    && JsonStorage.NullIfFalsy(e.ensembleType, e.ensembleType)
    && JsonStorage.NullIfFalsy(e.location, e.location)
    && JsonStorage.NullIfFalsy(e.auditioned, e.auditioned)
    && JsonStorage.NullIfFalsy(e.payLevel, e.payLevel)
    && JsonStorage.NullIfFalsy(e.ageRestrictions, e.ageRestrictions)
    && JsonStorage.NullIfFalsy(e.otherRestrictions, e.otherRestrictions)
    && JsonStorage.NullIfFalsy(e.season, e.season)
    && JsonStorage.NullIfFalsy(e.rehearsalDetails, e.rehearsalDetails)
  }

  /** The body built from a loaded ensemble form normalises back to the
      ensemble, except that the description, which the form lacks, is
      dropped. */
  lemma {:induction false} EnsembleFormRoundTrip(st: AdminState, e: Ensemble)
    requires EnsembleStoredShape(e)
    ensures JsonStorage.NormalizeEnsemble(EnsembleBody(PopulateEnsembleForm(st, e).ensembleForm), e.id)
            == e.(description := None)
  {
    OrNullOrEmptyRoundTrip(e.shortName, "");
    OrNullOrEmptyRoundTrip(e.organizationName, "");
    OrNullOrEmptyRoundTrip(e.website, "");
    OrNullOrEmptyRoundTrip(e.director, "");
    OrNullOrEmptyRoundTrip(e.ageGroup, "");
    OrNullOrEmptyRoundTrip(e.voiceType, "");
    OrNullOrEmptyRoundTrip(e.ensembleType, "");
    OrNullOrEmptyRoundTrip(e.location, "");
    OrNullOrEmptyRoundTrip(e.auditioned, "");
    OrNullOrEmptyRoundTrip(e.payLevel, "");
    OrNullOrEmptyRoundTrip(e.ageRestrictions, "");
    OrNullOrEmptyRoundTrip(e.otherRestrictions, "");
    OrNullOrEmptyRoundTrip(e.season, "");
    OrNullOrEmptyRoundTrip(e.rehearsalDetails, "");
  }

  // ---------------------------------------------------------------------
  // Selecting by id when ids are unique
  // ---------------------------------------------------------------------

  /** With unique ids, an organization's position is the first with its id. */
  lemma FirstOrganizationWhenUnique(orgs: seq<Organization>, i: int)
    requires UniqueOrganizationIds(orgs) && 0 <= i < |orgs|
    ensures FirstOrganizationWithId(orgs, i, orgs[i].id)
  {
  }

  /** With unique ids, selecting a listed organization loads exactly it. */
  lemma {:induction false} SelectListedOrganization(st: AdminState, orgs: seq<Organization>, o: Organization)
    requires UniqueOrganizationIds(orgs) && o in orgs && o.id != "new"
    ensures SelectOrganization(st, orgs, o.id) == PopulateOrgForm(st, o)
  {
    var i :| 0 <= i < |orgs| && orgs[i] == o;
    FirstOrganizationWhenUnique(orgs, i);
  }

  /** With unique ids, choosing a listed organization in the ensemble tab
      fills in exactly its name. */
  lemma {:induction false} ChosenOrganizationNamed(st: AdminState, orgs: seq<Organization>, o: Organization)
    requires UniqueOrganizationIds(orgs) && o in orgs
    ensures ChangeEnsembleOrganization(st, orgs, o.id).ensembleForm.organizationName == o.name
  {
    var i :| 0 <= i < |orgs| && orgs[i] == o;
    FirstOrganizationWhenUnique(orgs, i);
  }

  /** With unique ids, selecting a listed ensemble loads exactly it. */
  lemma {:induction false} SelectListedEnsemble(st: AdminState, orgs: seq<Organization>, ens: seq<Ensemble>, e: Ensemble)
    requires UniqueEnsembleIds(ens) && e in ens && e.id != "new"
    ensures SelectEnsemble(st, orgs, ens, e.id) == PopulateEnsembleForm(st, e)
  {
    var i :| 0 <= i < |ens| && ens[i] == e;
    assert FirstEnsembleWithId(ens, i, e.id);
  }
}

=== FILE: directory.dfy ===
/** The directory page's filter engine: an organization lookup by id, the
    number of ensembles per organization, the search and five facets that
    decide which ensembles are listed, and the two-key sort of the list.
    `toLowerCase` is ASCII lower-casing and `localeCompare` is code-point
    order (see `Text`). */
module Directory {
  import opened Wrappers
  import opened Text
  import opened Seqs
  import opened Schema
  import opened Display
  import JsonStorage

  // ---------------------------------------------------------------------
  // Filter state
  // ---------------------------------------------------------------------

  /** The search text and the five facet selections; "all" switches a facet
      off. */
  datatype Filters = Filters(
    search: string,
    organization: string,
    ageGroup: string,
    payLevel: string,
    audition: string,
    voiceType: string)

  /** `localStorage.getItem(key) || fallback`. */
  function Restore(stored: Option<string>, fallback: string): (r: string)
    ensures Falsy(stored) ==> r == fallback
    ensures !Falsy(stored) ==> Some(r) == stored
  {
    if Falsy(stored) then fallback else stored.value
  }

  /** The initial filter state: each missing or empty stored value becomes
      "" for the search and "all" for a facet. */
  function RestoreFilters(search: Option<string>, organization: Option<string>,
                          ageGroup: Option<string>, payLevel: Option<string>,
                          audition: Option<string>, voiceType: Option<string>): (f: Filters)
    ensures Falsy(search) ==> f.search == ""
    ensures (Falsy(organization) && Falsy(ageGroup) && Falsy(payLevel)
             && Falsy(audition) && Falsy(voiceType)) ==> FacetsOff(f)
  {
    Filters(Restore(search, ""), Restore(organization, "all"), Restore(ageGroup, "all"),
            Restore(payLevel, "all"), Restore(audition, "all"), Restore(voiceType, "all"))
  }

  predicate FacetsOff(f: Filters) {
    f.organization == "all" && f.ageGroup == "all" && f.payLevel == "all"
    && f.audition == "all" && f.voiceType == "all"
  }

  // ---------------------------------------------------------------------
  // Lookups
  // ---------------------------------------------------------------------

  /** `organizationMap`: each id maps to an organization with that id;
      later assignments overwrite earlier ones (see `OrganizationMapIsLast`). */
  function OrganizationMap(orgs: seq<Organization>): (m: map<string, Organization>)
    ensures forall k :: k in m <==> exists o :: o in orgs && o.id == k
    ensures forall k :: k in m ==> m[k].id == k && m[k] in orgs
  {
    if orgs == [] then map[]
    else
      var init := orgs[..|orgs| - 1];
      var last := orgs[|orgs| - 1];
      assert orgs == init + [last];
      OrganizationMap(init)[last.id := last]
  }

  /** The organization an id maps to is the last one in the list with that
      id. */
  lemma {:induction false} OrganizationMapIsLast(orgs: seq<Organization>, k: string)
    requires k in OrganizationMap(orgs)
    ensures exists i :: 0 <= i < |orgs| && orgs[i] == OrganizationMap(orgs)[k]
                        && forall j :: i < j < |orgs| ==> orgs[j].id != k
  {
    var init := orgs[..|orgs| - 1];
    var last := orgs[|orgs| - 1];
    assert orgs == init + [last];
    if last.id == k {
      assert orgs[|orgs| - 1] == OrganizationMap(orgs)[k];
    } else {
      OrganizationMapIsLast(init, k);
      var i :| 0 <= i < |init| && init[i] == OrganizationMap(init)[k]
               && forall j :: i < j < |init| ==> init[j].id != k;
      assert orgs[i] == OrganizationMap(orgs)[k];
      forall j | i < j < |orgs| ensures orgs[j].id != k {
        if j < |init| { assert orgs[j] == init[j]; }
      }
    }
  }

  /** The number of ensembles of organization `id`. */
  function EnsembleCount(ens: seq<Ensemble>, id: string): nat {
    |JsonStorage.EnsemblesOf(ens, id)|
  }

  /** `ensembleCountByOrg`: one pass over the ensembles, adding one to the
      entry of each ensemble's organization. */
  method EnsembleCounts(ens: seq<Ensemble>) returns (counts: map<string, nat>)
    ensures forall id :: id in counts <==> EnsembleCount(ens, id) > 0
    ensures forall id :: id in counts ==> counts[id] == EnsembleCount(ens, id)
  {
    counts := map[];
    var i := 0;
    while i < |ens|
      invariant 0 <= i <= |ens|
      invariant forall id :: id in counts <==> EnsembleCount(ens[..i], id) > 0
      invariant forall id :: id in counts ==> counts[id] == EnsembleCount(ens[..i], id)
    {
      var e := ens[i];
      var previous := if e.organizationId in counts then counts[e.organizationId] else 0;
      counts := counts[e.organizationId := previous + 1];
      forall id ensures EnsembleCount(ens[..i + 1], id)
                        == EnsembleCount(ens[..i], id) + (if e.organizationId == id then 1 else 0) {
        assert ens[..i + 1] == ens[..i] + [e];
        JsonStorage.EnsemblesOfAppend(ens[..i], [e], id);
        assert [e][1..] == [];
      }
      i := i + 1;
    }
    assert ens[..i] == ens;
  }

  /** `ensembleCountByOrg[id] || 0`. */
  function CountOf(counts: map<string, nat>, id: string): nat {
    if id in counts then counts[id] else 0
  }

  /** The organization line under an ensemble's name: shown only when the
      organization has more than one ensemble in the whole collection. */
  function Subtitle(o: Organization, count: nat): (r: Option<string>)
    ensures r.Some? <==> count > 1
    ensures r.Some? ==> r.value == DisplayName(o)
  {
    if count > 1 then Some(DisplayName(o)) else None
  }

  /** Read through the counts `EnsembleCounts` computes, the subtitle shows
      exactly for organizations with more than one ensemble in the whole
      collection, whatever the filters hide. */
  lemma SubtitleShownIffSeveral(ens: seq<Ensemble>, counts: map<string, nat>, o: Organization)
    requires forall id :: id in counts <==> EnsembleCount(ens, id) > 0
    requires forall id :: id in counts ==> counts[id] == EnsembleCount(ens, id)
    ensures Subtitle(o, CountOf(counts, o.id)).Some? <==> EnsembleCount(ens, o.id) > 1
  {
  }

  // ---------------------------------------------------------------------
  // The filter predicate
  // ---------------------------------------------------------------------

  /** A nullable field is truthy and its lower-cased text contains `needle`. */
  predicate FieldContains(field: Option<string>, needle: string) {
    !Falsy(field) && Contains(Lower(field.value), needle)
  }

  /** The search text, lower-cased, occurs in the organization's name, short
      name or mission statement, or in the ensemble's name, type or
      director, each lower-cased. */
  predicate SearchMatches(o: Organization, e: Ensemble, search: string) {
    var needle := Lower(search);
    var matchesOrg := Contains(Lower(o.name), needle)
                      || FieldContains(o.shortName, needle)
                      || FieldContains(o.missionStatement, needle);
    var matchesEnsemble := Contains(Lower(e.name), needle)
                           || FieldContains(e.ensembleType, needle)
                           || FieldContains(e.director, needle);
    matchesOrg || matchesEnsemble
  }

  /** An equality facet: "all" admits everything, anything else admits only
      an equal value. */
  predicate FacetAdmits(selection: string, value: Option<string>) {
    selection == "all" || value == Some(selection)
  }

  /** The audition facet: "yes" wants the stored text "True", any other
      selection but "all" wants "False"; a null never matches. */
  predicate AuditionAdmits(selection: string, auditioned: Option<string>) {
    selection == "all" || auditioned == Some(if selection == "yes" then "True" else "False")
  }

  /** The ensemble has an organization in the map, matches the search when
      there is one, and is admitted by every facet. */
  predicate Visible(m: map<string, Organization>, f: Filters, e: Ensemble) {
    && e.organizationId in m
    && (f.search == "" || SearchMatches(m[e.organizationId], e, f.search))
    && FacetAdmits(f.organization, Some(e.organizationId))
    && FacetAdmits(f.ageGroup, e.ageGroup)
    && FacetAdmits(f.payLevel, e.payLevel)
    && AuditionAdmits(f.audition, e.auditioned)
    && FacetAdmits(f.voiceType, e.voiceType)
  }

  function VisibleUnder(m: map<string, Organization>, f: Filters): Ensemble -> bool {
    (e: Ensemble) => Visible(m, f, e)
  }

  /** The sort key: organization name, then ensemble name. */
  function DirectoryKey(m: map<string, Organization>): Ensemble -> Key {
    (e: Ensemble) => Key(if e.organizationId in m then m[e.organizationId].name else "", e.name)
  }

  /** `filteredEnsembles`: exactly the visible ensembles, each as often as
      it is stored, ordered by organization name and then by ensemble name. */
  function FilteredEnsembles(orgs: seq<Organization>, ens: seq<Ensemble>, f: Filters): (r: seq<Ensemble>)
    ensures forall e :: e in r <==> e in ens && Visible(OrganizationMap(orgs), f, e)
    ensures forall e :: e in r ==> e.organizationId in OrganizationMap(orgs)
    ensures forall i, j :: 0 <= i < j < |r| ==>
      var m := OrganizationMap(orgs);
      var oi := m[r[i].organizationId].name;
      var oj := m[r[j].organizationId].name;
      StrCmp(oi, oj) < 0 || (oi == oj && StrCmp(r[i].name, r[j].name) <= 0)
  {
    var m := OrganizationMap(orgs);
    var kept := Filter(ens, VisibleUnder(m, f));
    var r := Sort(kept, DirectoryKey(m));
    assert forall e :: e in r <==> e in kept by {
      forall e ensures e in r <==> e in kept { SortSameElements(kept, DirectoryKey(m), e); }
    }
    assert forall e :: e in r ==> e.organizationId in m;
    forall i, j | 0 <= i < j < |r|
      ensures StrCmp(m[r[i].organizationId].name, m[r[j].organizationId].name) < 0
              || (m[r[i].organizationId].name == m[r[j].organizationId].name
                  && StrCmp(r[i].name, r[j].name) <= 0)
    {
      assert r[i] in r && r[j] in r;
      assert KeyLe(DirectoryKey(m)(r[i]), DirectoryKey(m)(r[j]));
      StrCmpZeroIff(m[r[i].organizationId].name, m[r[j].organizationId].name);
    }
    r
  }

  /** The list holds each visible ensemble exactly as often as the input
      does, and no other: filtering and sorting add no duplicates. */
  lemma {:induction false} FilteredEnsemblesCounts(orgs: seq<Organization>, ens: seq<Ensemble>, f: Filters, e: Ensemble)
    ensures multiset(FilteredEnsembles(orgs, ens, f))[e]
            == if Visible(OrganizationMap(orgs), f, e) then multiset(ens)[e] else 0
  {
    var m := OrganizationMap(orgs);
    FilterMultiset(ens, VisibleUnder(m, f), e);
  }

  // ---------------------------------------------------------------------
  // Properties of the filter
  // ---------------------------------------------------------------------

  /** With no search text and every facet on "all", the list is exactly the
      ensembles whose organization exists. */
  lemma {:induction false} NoFiltersListsAllWithOrganization(orgs: seq<Organization>, ens: seq<Ensemble>, f: Filters, e: Ensemble)
    requires f.search == "" && FacetsOff(f)
    ensures e in FilteredEnsembles(orgs, ens, f) <==> e in ens && exists o :: o in orgs && o.id == e.organizationId
  {
  }

  /** An ensemble whose organization is not in the list never appears. */
  lemma OrphansNeverListed(orgs: seq<Organization>, ens: seq<Ensemble>, f: Filters, e: Ensemble)
    requires forall o :: o in orgs ==> o.id != e.organizationId
    ensures e !in FilteredEnsembles(orgs, ens, f)
  {
  }

  /** The audition facet keeps only the matching stored text; an ensemble
      with no audition value is dropped whenever the facet is active. */
  lemma AuditionFacet(orgs: seq<Organization>, ens: seq<Ensemble>, f: Filters)
    ensures f.audition == "yes" ==> forall e :: e in FilteredEnsembles(orgs, ens, f) ==> e.auditioned == Some("True")
    ensures f.audition != "yes" && f.audition != "all" ==>
      forall e :: e in FilteredEnsembles(orgs, ens, f) ==> e.auditioned == Some("False")
    ensures f.audition != "all" ==> forall e :: e in FilteredEnsembles(orgs, ens, f) ==> e.auditioned.Some?
  {
  }

  /** Facets combine with AND: switching any one facet to "all" or clearing
      the search never removes an ensemble. */
  lemma RelaxingNeverHides(m: map<string, Organization>, f: Filters, e: Ensemble)
    requires Visible(m, f, e)
    ensures Visible(m, f.(search := ""), e)
    ensures Visible(m, f.(organization := "all"), e)
    ensures Visible(m, f.(ageGroup := "all"), e)
    ensures Visible(m, f.(payLevel := "all"), e)
    ensures Visible(m, f.(audition := "all"), e)
    ensures Visible(m, f.(voiceType := "all"), e)
  {
  }

  /** When organization ids are unique, the map entry for an id is the
      organization the store's `find` returns for it. */
  lemma {:induction false} MapAgreesWithFind(orgs: seq<Organization>, id: string)
    requires UniqueOrganizationIds(orgs)
    requires id in OrganizationMap(orgs)
    ensures Find(orgs, (o: Organization) => o.id == id) == Some(OrganizationMap(orgs)[id])
  {
    var m := OrganizationMap(orgs);
    assert m[id] in orgs;
    var i :| 0 <= i < |orgs| && orgs[i] == m[id];
    var found := Find(orgs, (o: Organization) => o.id == id);
    assert found.Some? by {
      FindSomeIfAny(orgs, (o: Organization) => o.id == id, orgs[i]);
    }
    var k :| 0 <= k < |orgs| && orgs[k] == found.value;
    assert orgs[k].id == id == orgs[i].id;
    assert k == i;
  }

  /** With a duplicated id the directory shows the last organization while
      the store's lookup returns the first. */
  lemma DuplicateIdsDisagree()
    ensures
      var first := Organization("x", "First", None, None, None, None, None, None, None, None);
      var second := Organization("x", "Second", None, None, None, None, None, None, None, None);
      && OrganizationMap([first, second])["x"] == second
      && Find([first, second], (o: Organization) => o.id == "x") == Some(first)
  {
    var first := Organization("x", "First", None, None, None, None, None, None, None, None);
    var second := Organization("x", "Second", None, None, None, None, None, None, None, None);
    assert [first, second][..1] == [first];
  }

  // ---------------------------------------------------------------------
  // Voice-type badge
  // ---------------------------------------------------------------------

  /** `ensemble.voiceType && getVoiceTypeDisplay(ensemble.voiceType)`: no
      badge for a missing, empty or "Child" voice type, otherwise the part
      grid. */
  function VoiceBadge(voiceType: Option<string>): (r: Option<Parts>)
    ensures r.None? <==> Falsy(voiceType) || voiceType == Some("Child")
    ensures r.Some? && IsVoicing(voiceType.value) ==> Letters(r.value) == set c | c in voiceType.value
    ensures r.Some? && !IsVoicing(voiceType.value) ==> Letters(r.value) == {}
  {
    if Falsy(voiceType) || voiceType.value == "Child" then None
    else Some(Highlights(voiceType.value))
  }
}

=== FILE: display.dfy ===
/** Display rules shared by the directory card, the organization card and
    the organization detail page: the name shown for an organization and
    the S/A/T/B part grid shown for an ensemble's voice type. */
module Display {
  import opened Wrappers
  import opened Text
  import opened Schema

  /** `organization.shortName || organization.name`. */
  function DisplayName(o: Organization): (r: string)
    ensures !Falsy(o.shortName) ==> Some(r) == o.shortName
    ensures Falsy(o.shortName) ==> r == o.name
  {
    if Falsy(o.shortName) then o.name else o.shortName.value
  }

  /** Which of the four part boxes are highlighted. */
  datatype Parts = Parts(s: bool, a: bool, t: bool, b: bool)

  /** The letters of the highlighted boxes. */
  function Letters(p: Parts): set<char> {
    (if p.s then {'S'} else {}) + (if p.a then {'A'} else {})
    + (if p.t then {'T'} else {}) + (if p.b then {'B'} else {})
  }

  /** The voicings that light up parts. */
  predicate IsVoicing(voiceType: string) {
    voiceType == "SATB" || voiceType == "SA" || voiceType == "TB"
  }

  /** The `hasS`/`hasA`/`hasT`/`hasB` flags: for SATB, SA and TB the
      highlighted boxes spell the voice type; for anything else none is. */
  function Highlights(voiceType: string): (p: Parts)
    ensures IsVoicing(voiceType) ==> Letters(p) == set c | c in voiceType
    ensures !IsVoicing(voiceType) ==> Letters(p) == {}
  {
    var hasS := voiceType == "SATB" || voiceType == "SA";
    var hasA := voiceType == "SATB" || voiceType == "SA";
    var hasT := voiceType == "SATB" || voiceType == "TB";
    var hasB := voiceType == "SATB" || voiceType == "TB";
    var p := Parts(hasS, hasA, hasT, hasB);
    assert voiceType == "SATB" ==> (set c | c in voiceType) == {'S', 'A', 'T', 'B'} by {
      if voiceType == "SATB" {
        assert voiceType[0] == 'S' && voiceType[1] == 'A' && voiceType[2] == 'T' && voiceType[3] == 'B';
      }
    }
    assert voiceType == "SA" ==> (set c | c in voiceType) == {'S', 'A'} by {
      if voiceType == "SA" {
        assert voiceType[0] == 'S' && voiceType[1] == 'A';
      }
    }
    assert voiceType == "TB" ==> (set c | c in voiceType) == {'T', 'B'} by {
      if voiceType == "TB" {
        assert voiceType[0] == 'T' && voiceType[1] == 'B';
      }
    }
    p
  }

  /** The four named cases, spelled out. */
  lemma HighlightCases()
    ensures Highlights("SATB") == Parts(true, true, true, true)
    ensures Highlights("SA") == Parts(true, true, false, false)
    ensures Highlights("TB") == Parts(false, false, true, true)
    ensures Highlights("Child") == Parts(false, false, false, false)
  {
  }
}

=== FILE: json_storage.dfy ===
/** The JSON-file record store: two collections, organizations and
    ensembles, each kept as one JSON array in its own file. Every operation
    reads the whole file; a create appends one record and writes the whole
    array back. The file system is abstracted to one `FileState` per file,
    and the fresh id that `randomUUID` would produce is a parameter. */
module JsonStorage {
  import opened Wrappers
  import opened Text
  import opened Seqs
  import opened Schema

  /** What `fs.readFile` would find at a collection's path.
      - `Missing`: the file does not exist (ENOENT);
      - `Unreadable`: any other read error;
      - `Contents`: text on disk, with `parsed` the outcome of `JSON.parse`
        on it (None when it is not valid JSON);
      - `Written`: a file this store wrote with `JSON.stringify`, which is
        never blank and parses back to `records`. */
  datatype FileState<T> =
    | Missing
    | Unreadable
    | Contents(content: string, parsed: Option<seq<T>>)
    | Written(records: seq<T>)

  /** The exceptions the store throws, one per message. */
  datatype StoreError =
    | InvalidOrganizationId     // 'Invalid organization ID provided'
    | InvalidOrganizationSlug   // 'Invalid organization urlSlug provided'
    | OrganizationNameRequired  // 'Organization name is required'
    | EnsembleNameRequired      // 'Ensemble name is required'
    | OrganizationIdRequired    // 'Organization ID is required'
    | OrganizationNotFound      // 'Organization not found'
    | ReadFailed                // 'Failed to read data file: ...'

  datatype Store = Store(
    organizationsFile: FileState<Organization>,
    ensemblesFile: FileState<Ensemble>)

  /** `readJsonFile`: a missing file and a blank file read as the empty
      list; any other read or parse failure is an error. */
  function ReadJsonFile<T>(f: FileState<T>): (r: Result<seq<T>, StoreError>)
    ensures f.Missing? || (f.Contents? && IsBlank(f.content)) ==> r == Ok([])
    ensures r.Err? <==> f.Unreadable? || (f.Contents? && !IsBlank(f.content) && f.parsed.None?)
    ensures r.Err? ==> r.error == ReadFailed
    ensures f.Contents? && !IsBlank(f.content) && f.parsed.Some? ==> r == Ok(f.parsed.value)
    ensures f.Written? ==> r == Ok(f.records)
  {
    match f
    case Missing => Ok([])
    case Unreadable => Err(ReadFailed)
    case Contents(content, parsed) =>
      TrimEmptyIffBlank(content);
      if Trim(content) == [] then Ok([])
      else if parsed.None? then Err(ReadFailed)
      else Ok(parsed.value)
    case Written(records) => Ok(records)
  }

  /** `getOrganizations`. */
  function GetOrganizations(store: Store): Result<seq<Organization>, StoreError> {
    ReadJsonFile(store.organizationsFile)
  }

  /** `getEnsembles`. */
  function GetEnsembles(store: Store): Result<seq<Ensemble>, StoreError> {
    ReadJsonFile(store.ensemblesFile)
  }

  /** The ensembles of `ens` that belong to organization `id`, in order. */
  function EnsemblesOf(ens: seq<Ensemble>, id: string): seq<Ensemble> {
    Filter(ens, BelongsTo(id))
  }

  /** The test `ensemble.organizationId === id`. */
  function BelongsTo(id: string): Ensemble -> bool {
    (e: Ensemble) => e.organizationId == id
  }

  /** `EnsemblesOf` distributes over concatenation. */
  lemma EnsemblesOfAppend(a: seq<Ensemble>, b: seq<Ensemble>, id: string)
    ensures EnsemblesOf(a + b, id) == EnsemblesOf(a, id) + EnsemblesOf(b, id)
  {
    FilterAppend(a, b, BelongsTo(id));
  }

  /** `getEnsemblesByOrganization`: rejects an empty id, otherwise the stored
      ensembles whose `organizationId` is exactly `id`, in stored order. */
  function GetEnsemblesByOrganization(store: Store, id: string): (r: Result<seq<Ensemble>, StoreError>)
    ensures id == "" ==> r == Err(InvalidOrganizationId)
    ensures id != "" && GetEnsembles(store).Err? ==> r == Err(ReadFailed)
    ensures r.Ok? <==> id != "" && GetEnsembles(store).Ok?
    ensures r.Ok? ==> forall e :: e in r.value <==> e in GetEnsembles(store).value && e.organizationId == id
    ensures r.Ok? ==> r.value == EnsemblesOf(GetEnsembles(store).value, id)
  {
    if id == "" then Err(InvalidOrganizationId)
    else
      match GetEnsembles(store)
      case Err(e) => Err(e)
      case Ok(ens) => Ok(EnsemblesOf(ens, id))
  }

  /** `getOrganization`: rejects an empty id; otherwise none when no stored
      organization has that id, else the first one joined with exactly its
      ensembles. */
  function GetOrganization(store: Store, id: string): (r: Result<Option<OrganizationWithEnsembles>, StoreError>)
    ensures id == "" ==> r == Err(InvalidOrganizationId)
    ensures r.Err? ==> r.error == InvalidOrganizationId || r.error == ReadFailed
    ensures id != "" && GetOrganizations(store).Ok? && GetEnsembles(store).Ok? ==> r.Ok?
    ensures r == Ok(None) <==>
      id != "" && GetOrganizations(store).Ok?
      && forall o :: o in GetOrganizations(store).value ==> o.id != id
    ensures r.Ok? && r.value.Some? ==>
      && GetOrganizations(store).Ok? && GetEnsembles(store).Ok?
      && r.value.value.organization in GetOrganizations(store).value
      && r.value.value.organization.id == id
      && (var orgs := GetOrganizations(store).value;
          exists i :: 0 <= i < |orgs| && orgs[i] == r.value.value.organization
                      && forall j :: 0 <= j < i ==> orgs[j].id != id)
      && r.value.value.ensembles == EnsemblesOf(GetEnsembles(store).value, id)
  {
    if id == "" then Err(InvalidOrganizationId)
    else
      match GetOrganizations(store)
      case Err(e) => Err(e)
      case Ok(orgs) =>
        match Find(orgs, (o: Organization) => o.id == id)
        case None => Ok(None)
        case Some(org) =>
          match GetEnsemblesByOrganization(store, id)
          case Err(e) => Err(e)
          case Ok(ens) => Ok(Some(OrganizationWithEnsembles(org, ens)))
  }

  /** `getOrganizationBySlug`: rejects an empty slug; otherwise the first
      organization whose `urlSlug` is the slug, joined with its ensembles,
      or none. The join goes through `getEnsemblesByOrganization`, so a
      matching organization stored with an empty id makes it throw. */
  function GetOrganizationBySlug(store: Store, slug: string): (r: Result<Option<OrganizationWithEnsembles>, StoreError>)
    ensures r == Err(InvalidOrganizationSlug) <==> slug == ""
    ensures r.Err? ==> r.error in {InvalidOrganizationSlug, InvalidOrganizationId, ReadFailed}
    ensures slug != "" && GetOrganizations(store).Ok? && GetEnsembles(store).Ok? ==>
      r.Ok? || r == Err(InvalidOrganizationId)
    ensures r == Ok(None) <==>
      slug != "" && GetOrganizations(store).Ok?
      && forall o :: o in GetOrganizations(store).value ==> o.urlSlug != Some(slug)
    ensures r.Ok? && r.value.Some? ==>
      GetOrganizations(store).Ok? && GetEnsembles(store).Ok?
    ensures r.Ok? && r.value.Some? ==>
      var orgs := GetOrganizations(store).value;
      var org := r.value.value.organization;
      && org.urlSlug == Some(slug) && org.id != ""
      && (exists i :: 0 <= i < |orgs| && orgs[i] == org
                      && forall j :: 0 <= j < i ==> orgs[j].urlSlug != Some(slug))
      && r.value.value.ensembles == EnsemblesOf(GetEnsembles(store).value, org.id)
    ensures r == Err(InvalidOrganizationId) <==>
      slug != "" && GetOrganizations(store).Ok?
      && var first := Find(GetOrganizations(store).value, (o: Organization) => o.urlSlug == Some(slug));
         first.Some? && first.value.id == ""
  {
    if slug == "" then Err(InvalidOrganizationSlug)
    else
      match GetOrganizations(store)
      case Err(e) => Err(e)
      case Ok(orgs) =>
        match Find(orgs, (o: Organization) => o.urlSlug == Some(slug))
        case None => Ok(None)
        case Some(org) =>
          match GetEnsemblesByOrganization(store, org.id)
          case Err(e) => Err(e)
          case Ok(ens) => Ok(Some(OrganizationWithEnsembles(org, ens)))
  }

  /** `stored` is what `given || null` yields: null exactly when `given` is
      falsy, and otherwise the given text itself. */
  predicate NullIfFalsy(given: Option<string>, stored: Option<string>) {
    (stored.None? <==> Falsy(given)) && (stored.Some? ==> stored == given)
  }

  /** The organization `createOrganization` builds from its input: the
      given fields and the fresh id, `shortName`..`missionStatement` turned
      to null when falsy, `name` and `goals` copied unchanged. */
  function NormalizeOrganization(n: NewOrganization, id: string): (o: Organization)
    ensures o.id == id && o.name == n.name && o.goals == n.goals
    ensures NullIfFalsy(n.shortName, o.shortName) && NullIfFalsy(n.urlSlug, o.urlSlug)
    ensures NullIfFalsy(n.website, o.website) && NullIfFalsy(n.socialMedia, o.socialMedia)
    ensures NullIfFalsy(n.email, o.email)
    ensures NullIfFalsy(n.religiousAffiliation, o.religiousAffiliation)
    ensures NullIfFalsy(n.missionStatement, o.missionStatement)
  {
    OrganizationRow(n.(shortName := OrNull(n.shortName),
                       urlSlug := OrNull(n.urlSlug),
                       website := OrNull(n.website),
                       socialMedia := OrNull(n.socialMedia),
                       email := OrNull(n.email),
                       religiousAffiliation := OrNull(n.religiousAffiliation),
                       missionStatement := OrNull(n.missionStatement)), id)
  }

  /** The ensemble `createEnsemble` builds from its input: the fresh id,
      `shortName`..`rehearsalDetails` turned to null when falsy, `name`,
      `organizationId` and `description` copied unchanged. */
  function NormalizeEnsemble(n: NewEnsemble, id: string): (e: Ensemble)
    ensures e.id == id && e.name == n.name && e.organizationId == n.organizationId
    ensures e.description == n.description
    ensures NullIfFalsy(n.shortName, e.shortName)
    ensures NullIfFalsy(n.organizationName, e.organizationName)
    ensures NullIfFalsy(n.website, e.website) && NullIfFalsy(n.director, e.director)
    ensures NullIfFalsy(n.ageGroup, e.ageGroup) && NullIfFalsy(n.voiceType, e.voiceType)
    ensures NullIfFalsy(n.ensembleType, e.ensembleType) && NullIfFalsy(n.location, e.location)
    ensures NullIfFalsy(n.auditioned, e.auditioned) && NullIfFalsy(n.payLevel, e.payLevel)
    ensures NullIfFalsy(n.ageRestrictions, e.ageRestrictions)
    ensures NullIfFalsy(n.otherRestrictions, e.otherRestrictions)
    ensures NullIfFalsy(n.season, e.season)
    ensures NullIfFalsy(n.rehearsalDetails, e.rehearsalDetails)
  {
    EnsembleRow(n.(shortName := OrNull(n.shortName),
                   organizationName := OrNull(n.organizationName),
                   website := OrNull(n.website),
                   director := OrNull(n.director),
                   ageGroup := OrNull(n.ageGroup),
                   voiceType := OrNull(n.voiceType),
                   ensembleType := OrNull(n.ensembleType),
                   location := OrNull(n.location),
                   auditioned := OrNull(n.auditioned),
                   payLevel := OrNull(n.payLevel),
                   ageRestrictions := OrNull(n.ageRestrictions),
                   otherRestrictions := OrNull(n.otherRestrictions),
                   season := OrNull(n.season),
                   rehearsalDetails := OrNull(n.rehearsalDetails)), id)
  }

  /** Storing a stored record again changes nothing: normalization is
      idempotent. */
  lemma NormalizeIdempotent(n: NewOrganization, m: NewEnsemble, id: string)
    ensures var o := NormalizeOrganization(n, id);
            NormalizeOrganization(OrganizationFields(o), id) == o
    ensures var e := NormalizeEnsemble(m, id);
            NormalizeEnsemble(EnsembleFields(e), id) == e
  {
  }

  /** `createOrganization`: fails on a blank name without touching the
      store; otherwise appends the new organization at the end of the list
      it read and writes the whole list back. The ensembles file is never
      touched. */
  function CreateOrganization(store: Store, n: NewOrganization, freshId: string): (r: (Result<Organization, StoreError>, Store))
    ensures r.0.Err? ==> r.1 == store
    ensures r.0.Err? ==> r.0.error == OrganizationNameRequired || r.0.error == ReadFailed
    ensures r.0 == Err(OrganizationNameRequired) <==> IsBlank(n.name)
    ensures r.0 == Err(ReadFailed) <==> !IsBlank(n.name) && GetOrganizations(store).Err?
    ensures r.0.Ok? ==>
      && GetOrganizations(store).Ok?
      && r.0.value == NormalizeOrganization(n, freshId)
      && r.1 == store.(organizationsFile := Written(GetOrganizations(store).value + [r.0.value]))
  {
    TrimEmptyIffBlank(n.name);
    if Trim(n.name) == [] then (Err(OrganizationNameRequired), store)
    else
      match GetOrganizations(store)
      case Err(e) => (Err(e), store)
      case Ok(orgs) =>
        var org := NormalizeOrganization(n, freshId);
        (Ok(org), store.(organizationsFile := Written(orgs + [org])))
  }

  /** `createEnsemble`: fails on a blank name, then on a blank
      `organizationId`, then when no stored organization has exactly that
      id, always without touching the store; otherwise appends the new
      ensemble to the ensemble list. The organizations file is never
      touched. */
  function CreateEnsemble(store: Store, n: NewEnsemble, freshId: string): (r: (Result<Ensemble, StoreError>, Store))
    ensures r.0.Err? ==> r.1 == store
    ensures r.0.Err? ==> r.0.error in {EnsembleNameRequired, OrganizationIdRequired, OrganizationNotFound, ReadFailed}
    ensures r.0 == Err(EnsembleNameRequired) <==> IsBlank(n.name)
    ensures r.0 == Err(OrganizationIdRequired) <==> !IsBlank(n.name) && IsBlank(n.organizationId)
    ensures r.0 == Err(OrganizationNotFound) <==>
      && !IsBlank(n.name) && !IsBlank(n.organizationId)
      && GetOrganizations(store).Ok?
      && forall o :: o in GetOrganizations(store).value ==> o.id != n.organizationId
    ensures && !IsBlank(n.name) && !IsBlank(n.organizationId)
            && GetOrganizations(store).Ok? && GetEnsembles(store).Ok?
            && (exists o :: o in GetOrganizations(store).value && o.id == n.organizationId)
            ==> r.0.Ok?
    ensures r.0.Ok? ==>
      && GetOrganizations(store).Ok? && GetEnsembles(store).Ok?
      && (exists o :: o in GetOrganizations(store).value && o.id == n.organizationId)
      && r.0.value == NormalizeEnsemble(n, freshId)
      && r.1 == store.(ensemblesFile := Written(GetEnsembles(store).value + [r.0.value]))
  {
    TrimEmptyIffBlank(n.name);
    TrimEmptyIffBlank(n.organizationId);
    if Trim(n.name) == [] then (Err(EnsembleNameRequired), store)
    else if Trim(n.organizationId) == [] then (Err(OrganizationIdRequired), store)
    else
      match GetOrganizations(store)
      case Err(e) => (Err(e), store)
      case Ok(orgs) =>
        if Find(orgs, (o: Organization) => o.id == n.organizationId).None? then
          (Err(OrganizationNotFound), store)
        else
          match GetEnsembles(store)
          case Err(e) => (Err(e), store)
          case Ok(ens) =>
            var e := NormalizeEnsemble(n, freshId);
            (Ok(e), store.(ensemblesFile := Written(ens + [e])))
  }

  // ---------------------------------------------------------------------
  // Properties across operations
  // ---------------------------------------------------------------------

  /** Creating an organization and listing again gives the old list with
      exactly the new record appended; the earlier records are unchanged and
      the ensembles are untouched. */
  lemma {:induction false} CreateOrganizationThenList(store: Store, n: NewOrganization, freshId: string)
    requires !IsBlank(n.name) && GetOrganizations(store).Ok?
    ensures var (res, store') := CreateOrganization(store, n, freshId);
            && res.Ok? && GetOrganizations(store').Ok?
            && |GetOrganizations(store').value| == |GetOrganizations(store).value| + 1
            && GetOrganizations(store').value[..|GetOrganizations(store).value|] == GetOrganizations(store).value
            && GetOrganizations(store').value[|GetOrganizations(store).value|] == res.value
            && GetEnsembles(store') == GetEnsembles(store)
  {
    var (res, store') := CreateOrganization(store, n, freshId);
    assert res.Ok?;
    var before := GetOrganizations(store).value;
    assert (before + [res.value])[..|before|] == before;
  }

  /** A whole-store consistency condition: both files read, ids are unique
      within each collection, and every ensemble's organization exists. */
  predicate Consistent(store: Store) {
    && GetOrganizations(store).Ok? && GetEnsembles(store).Ok?
    && UniqueOrganizationIds(GetOrganizations(store).value)
    && UniqueEnsembleIds(GetEnsembles(store).value)
    && ReferencesResolve(GetOrganizations(store).value, GetEnsembles(store).value)
  }

  /** With a fresh id (what `randomUUID` is trusted to give), creating an
      organization keeps the store consistent. */
  lemma {:induction false} CreateOrganizationKeepsConsistent(store: Store, n: NewOrganization, freshId: string)
    requires Consistent(store)
    requires forall o :: o in GetOrganizations(store).value ==> o.id != freshId
    ensures Consistent(CreateOrganization(store, n, freshId).1)
  {
    var (res, store') := CreateOrganization(store, n, freshId);
    if res.Ok? {
      var orgs := GetOrganizations(store).value;
      var orgs' := orgs + [res.value];
      assert GetOrganizations(store').value == orgs';
      forall i, j | 0 <= i < j < |orgs'| ensures orgs'[i].id != orgs'[j].id {
        if j == |orgs| {
          assert orgs'[i] == orgs[i];
          assert orgs[i] in orgs;
        }
      }
      var ens := GetEnsembles(store).value;
      forall e | e in ens ensures exists o :: o in orgs' && o.id == e.organizationId {
        var o :| o in orgs && o.id == e.organizationId;
        assert o in orgs';
      }
    }
  }

  /** With a fresh id, creating an ensemble keeps the store consistent: the
      organization check is what keeps every reference resolvable. */
  lemma {:induction false} CreateEnsembleKeepsConsistent(store: Store, n: NewEnsemble, freshId: string)
    requires Consistent(store)
    requires forall e :: e in GetEnsembles(store).value ==> e.id != freshId
    ensures Consistent(CreateEnsemble(store, n, freshId).1)
  {
    var (res, store') := CreateEnsemble(store, n, freshId);
    if res.Ok? {
      AppendResolvedEnsembleKeepsConsistent(store, res.value);
    }
  }

  /** Appending an ensemble with a fresh id whose organization exists keeps
      the store consistent. */
  lemma {:induction false} AppendResolvedEnsembleKeepsConsistent(store: Store, e: Ensemble)
    requires Consistent(store)
    requires forall x :: x in GetEnsembles(store).value ==> x.id != e.id
    requires exists o :: o in GetOrganizations(store).value && o.id == e.organizationId
    ensures Consistent(store.(ensemblesFile := Written(GetEnsembles(store).value + [e])))
  {
    var orgs := GetOrganizations(store).value;
    var ens := GetEnsembles(store).value;
    var ens' := ens + [e];
    forall i, j | 0 <= i < j < |ens'| ensures ens'[i].id != ens'[j].id {
      if j == |ens| {
        assert ens'[i] == ens[i];
        assert ens[i] in ens;
      }
    }
    forall x | x in ens' ensures exists o :: o in orgs && o.id == x.organizationId {
      if x != e {
        assert x in ens;
      }
    }
  }

  /** `createEnsemble` succeeds whenever both names are present, both files
      read and the organization exists: the new ensemble is the normalised
      input with the fresh id. */
  lemma CreateEnsembleSucceeds(store: Store, n: NewEnsemble, freshId: string)
    requires !IsBlank(n.name) && !IsBlank(n.organizationId)
    requires GetOrganizations(store).Ok? && GetEnsembles(store).Ok?
    requires exists o :: o in GetOrganizations(store).value && o.id == n.organizationId
    ensures CreateEnsemble(store, n, freshId).0 == Ok(NormalizeEnsemble(n, freshId))
  {
  }

  /** After creating an ensemble, looking its organization up returns the
      organization joined with its earlier ensembles and the new one last. */
  lemma {:induction false} CreateEnsembleThenGetOrganization(store: Store, n: NewEnsemble, freshId: string)
    requires !IsBlank(n.name) && !IsBlank(n.organizationId)
    requires GetOrganizations(store).Ok? && GetEnsembles(store).Ok?
    requires exists o :: o in GetOrganizations(store).value && o.id == n.organizationId
    ensures var (res, store') := CreateEnsemble(store, n, freshId);
            var got := GetOrganization(store', n.organizationId);
            && res.Ok? && got.Ok? && got.value.Some?
            && got.value.value.organization.id == n.organizationId
            && got.value.value.ensembles
               == EnsemblesOf(GetEnsembles(store).value, n.organizationId) + [res.value]
  {
    var id := n.organizationId;
    var orgs := GetOrganizations(store).value;
    var ens := GetEnsembles(store).value;
    var o :| o in orgs && o.id == id;
    CreateEnsembleSucceeds(store, n, freshId);
    var (res, store') := CreateEnsemble(store, n, freshId);
    TrimEmptyIffBlank(id);
    assert id != "";
    assert GetOrganizations(store') == Ok(orgs);
    assert GetEnsembles(store') == Ok(ens + [res.value]);
    EnsemblesOfAppend(ens, [res.value], id);
    assert [res.value][1..] == [];
    assert EnsemblesOf([res.value], id) == [res.value];
    var got := GetOrganization(store', id);
    assert got != Ok(None);
  }

  /** Creating an organization in a store with no files writes a list
      holding just that organization; the ensemble file stays absent. */
  lemma CreateOrganizationInEmptyStore(n: NewOrganization, freshId: string)
    requires !IsBlank(n.name)
    ensures var r := CreateOrganization(Store(Missing, Missing), n, freshId);
            && r.0 == Ok(NormalizeOrganization(n, freshId))
            && r.1 == Store(Written([r.0.value]), Missing)
  {
    assert GetOrganizations(Store(Missing, Missing)) == Ok([]);
    assert [] + [NormalizeOrganization(n, freshId)] == [NormalizeOrganization(n, freshId)];
  }

  /** Creating an ensemble for the only organization of a store that holds
      no ensembles writes a list holding just that ensemble. */
  lemma CreateEnsembleInSingleOrganizationStore(store: Store, o: Organization, m: NewEnsemble, freshId: string)
    requires GetOrganizations(store) == Ok([o]) && GetEnsembles(store) == Ok([])
    requires !IsBlank(m.name) && !IsBlank(m.organizationId) && o.id == m.organizationId
    ensures var r := CreateEnsemble(store, m, freshId);
            && r.0 == Ok(NormalizeEnsemble(m, freshId))
            && r.1 == store.(ensemblesFile := Written([r.0.value]))
  {
    var e := NormalizeEnsemble(m, freshId);
    assert CreateEnsemble(store, m, freshId).0 == Ok(e) by {
      assert o in GetOrganizations(store).value;
      CreateEnsembleSucceeds(store, m, freshId);
    }
    assert [] + [e] == [e];
  }

  /** Reading back an organization stored alone with one ensemble of its
      own joins the two. */
  lemma GetOrganizationWithOneEnsemble(o: Organization, e: Ensemble)
    requires o.id != "" && e.organizationId == o.id
    ensures GetOrganization(Store(Written([o]), Written([e])), o.id)
            == Ok(Some(OrganizationWithEnsembles(o, [e])))
  {
    var store := Store(Written([o]), Written([e]));
    assert o in [o];
    assert EnsemblesOf([e], o.id) == [e] by {
      FilterKeepsAll([e], BelongsTo(o.id));
    }
    var got := GetOrganization(store, o.id);
    assert got.value.value.organization in [o];
  }

  /** The end-to-end scenario: on an empty store, creating "KC Chorale" and
      then its "Chamber Choir" makes the organization read back with that one
      ensemble. */
  lemma EmptyStoreScenario()
    ensures
      var n := NewOrganization("KC Chorale", None, None, None, None, None, None, None, None);
      var m := NewEnsemble("Chamber Choir", None, "org-1", None, None, None, None, None,
                           None, None, None, None, None, None, None, None, None);
      var (org, s1) := CreateOrganization(Store(Missing, Missing), n, "org-1");
      var (ens, s2) := CreateEnsemble(s1, m, "ens-1");
      && org.Ok? && org.value.id == "org-1" && org.value.shortName == None
      && ens.Ok? && ens.value.organizationId == "org-1"
      && GetOrganization(s2, "org-1") == Ok(Some(OrganizationWithEnsembles(org.value, [ens.value])))
  {
    var n := NewOrganization("KC Chorale", None, None, None, None, None, None, None, None);
    var m := NewEnsemble("Chamber Choir", None, "org-1", None, None, None, None, None,
                         None, None, None, None, None, None, None, None, None);
    assert !IsBlank(n.name) && !IsBlank(m.name) && !IsBlank(m.organizationId) by {
      assert !IsJsWhitespace(n.name[0]) && !IsJsWhitespace(m.name[0]) && !IsJsWhitespace(m.organizationId[0]);
    }
    CreateOrganizationInEmptyStore(n, "org-1");
    var o := NormalizeOrganization(n, "org-1");
    CreateEnsembleInSingleOrganizationStore(Store(Written([o]), Missing), o, m, "ens-1");
    GetOrganizationWithOneEnsemble(o, NormalizeEnsemble(m, "ens-1"));
  }

  /** An ensemble that names an organization the store does not hold is
      refused and nothing is written. */
  lemma UnknownOrganizationScenario(store: Store, n: NewEnsemble, freshId: string)
    requires GetOrganizations(store) == Ok([])
    requires !IsBlank(n.name) && !IsBlank(n.organizationId)
    ensures CreateEnsemble(store, n, freshId) == (Err(OrganizationNotFound), store)
  {
  }
}

=== FILE: organization_card.dfy ===
/** The organization card on the directory page: the title, the shortened
    mission statement, the distinct badge values drawn from the
    organization's ensembles (capped per kind), and the director summary. */
module OrganizationCard {
  import opened Wrappers
  import opened Text
  import opened Schema
  import opened Display

  // ---------------------------------------------------------------------
  // Distinct values
  // ---------------------------------------------------------------------

  /** One nullable column read off every ensemble, in order. */
  function Column(ens: seq<Ensemble>, field: Ensemble -> Option<string>): (r: seq<Option<string>>)
    ensures |r| == |ens|
    ensures forall i :: 0 <= i < |ens| ==> r[i] == field(ens[i])
  {
    seq(|ens|, i requires 0 <= i < |ens| => field(ens[i]))
  }

  /** `Array.from(new Set(values.filter(Boolean)))`: the truthy values, each
      once. A `Set` remembers insertion order, so a value is kept where it
      first occurs. */
  function DistinctValues(xs: seq<Option<string>>): (r: seq<string>)
    ensures forall i, j :: 0 <= i < j < |r| ==> r[i] != r[j]
    ensures forall s :: s in r <==> s != "" && Some(s) in xs
    ensures |r| <= |xs|
  {
    if xs == [] then []
    else
      var init := xs[..|xs| - 1];
      var x := xs[|xs| - 1];
      var r0 := DistinctValues(init);
      assert xs == init + [x];
      if Falsy(x) || x.value in r0 then r0 else r0 + [x.value]
  }

  /** The position of the first occurrence of `Some(s)`. */
  function FirstIndexOf(xs: seq<Option<string>>, s: string): (i: nat)
    requires Some(s) in xs
    ensures i < |xs| && xs[i] == Some(s)
    ensures forall j :: 0 <= j < i ==> xs[j] != Some(s)
  {
    if xs[0] == Some(s) then 0
    else
      assert xs == [xs[0]] + xs[1..];
      1 + FirstIndexOf(xs[1..], s)
  }

  /** Appending an element does not move an existing first occurrence. */
  lemma FirstIndexOfExtend(xs: seq<Option<string>>, x: Option<string>, s: string)
    requires Some(s) in xs
    ensures FirstIndexOf(xs + [x], s) == FirstIndexOf(xs, s)
  {
    var i := FirstIndexOf(xs + [x], s);
    var k := FirstIndexOf(xs, s);
    assert (xs + [x])[k] == Some(s);
  }

  /** The distinct values appear in the order of their first occurrences. */
  lemma {:induction false} DistinctInFirstOccurrenceOrder(xs: seq<Option<string>>, i: nat, j: nat)
    requires i < j < |DistinctValues(xs)|
    ensures Some(DistinctValues(xs)[i]) in xs && Some(DistinctValues(xs)[j]) in xs
    ensures FirstIndexOf(xs, DistinctValues(xs)[i]) < FirstIndexOf(xs, DistinctValues(xs)[j])
    decreases |xs|
  {
    var r := DistinctValues(xs);
    assert r[i] in r && r[j] in r;
    var init := xs[..|xs| - 1];
    var x := xs[|xs| - 1];
    assert xs == init + [x];
    var r0 := DistinctValues(init);
    if j < |r0| {
      assert r[i] == r0[i] && r[j] == r0[j];
      DistinctInFirstOccurrenceOrder(init, i, j);
      FirstIndexOfExtend(init, x, r[i]);
      FirstIndexOfExtend(init, x, r[j]);
    } else {
      assert r == r0 + [x.value] && r[j] == x.value && r[i] == r0[i];
      assert r0[i] in r0;
      FirstIndexOfExtend(init, x, r[i]);
      assert Some(r[j]) !in init;
      assert FirstIndexOf(xs, r[j]) == |init|;
    }
  }

  // ---------------------------------------------------------------------
  // Badges
  // ---------------------------------------------------------------------

  /** `xs.slice(0, n)`. */
  function Take(xs: seq<string>, n: nat): (r: seq<string>)
    ensures |r| <= n && |r| <= |xs|
    ensures |r| == n || r == xs
    ensures r == xs[..|r|]
  {
    if |xs| <= n then xs else xs[..n]
  }

  datatype BadgeVariant = Default | Secondary | Destructive | Outline

  /** The audition badge reads "Auditioned" only for the stored text
      "True"; any other stored text reads "Non-Auditioned". */
  function AuditionBadge(value: string): (r: (string, BadgeVariant))
    ensures r.0 == "Auditioned" <==> value == "True"
    ensures r.0 != "Auditioned" ==> r.0 == "Non-Auditioned"
    ensures r.1 == Default <==> value == "True"
    ensures r.1 != Default ==> r.1 == Destructive
  {
    if value == "True" then ("Auditioned", Default) else ("Non-Auditioned", Destructive)
  }

  // ---------------------------------------------------------------------
  // Text
  // ---------------------------------------------------------------------

  /** A mission statement longer than 150 characters is cut to its first
      150 characters followed by "..."; a shorter one is shown as is. */
  function TruncateMission(s: string): (r: string)
    ensures |s| <= 150 ==> r == s
    ensures |s| > 150 ==> |r| == 153 && r[..150] == s[..150] && r[150..] == "..."
    ensures |r| <= 153
  {
    if |s| > 150 then s[..150] + "..." else s
  }

  /** Shortening twice is shortening once. */
  lemma TruncateMissionIdempotent(s: string)
    ensures TruncateMission(TruncateMission(s)) == TruncateMission(s)
  {
    if |s| > 150 {
      var r := TruncateMission(s);
      assert r[..150] + "..." == r;
    }
  }

  /** The director line: hidden without directors, otherwise the first two
      joined by ", " and, when there are more than two, " +N more". */
  function DirectorLine(ds: seq<string>): (r: Option<string>)
    ensures r.None? <==> ds == []
    ensures |ds| == 1 ==> r == Some("Director: " + ds[0])
    ensures |ds| == 2 ==> r == Some("Director: " + (ds[0] + ", " + ds[1]))
  {
    if ds == [] then None
    else
      var shown := Join(Take(ds, 2), ", ");
      assert |ds| == 1 ==> Take(ds, 2) == [ds[0]];
      assert |ds| >= 2 ==> Take(ds, 2) == [ds[0], ds[1]] && shown == ds[0] + ", " + ds[1] by {
        if |ds| >= 2 { JoinTwo(ds[0], ds[1], ", "); }
      }
      if |ds| > 2 then Some("Director: " + shown + " +" + NatToString(|ds| - 2) + " more")
      else Some("Director: " + shown)
  }

  /** With more than two directors, the line names the first two and then
      a number that reads back as how many were left unnamed. */
  lemma DirectorLineCount(ds: seq<string>)
    requires |ds| > 2
    ensures exists t :: DirectorLine(ds) == Some("Director: " + (ds[0] + ", " + ds[1]) + " +" + t + " more")
                        && (forall k :: 0 <= k < |t| ==> IsDigit(t[k]))
                        && ParseDigits(t) == |ds| - 2
  {
    var t := NatToString(|ds| - 2);
    NatToStringRoundTrip(|ds| - 2);
    assert Take(ds, 2) == [ds[0], ds[1]];
    JoinTwo(ds[0], ds[1], ", ");
    assert DirectorLine(ds) == Some("Director: " + (ds[0] + ", " + ds[1]) + " +" + t + " more");
  }

  // ---------------------------------------------------------------------
  // The card
  // ---------------------------------------------------------------------

  datatype Card = Card(
    title: string,
    mission: Option<string>,
    ensembleTypeBadges: seq<string>,
    auditionBadges: seq<(string, BadgeVariant)>,
    voiceTypeBadges: seq<string>,
    payLevelBadges: seq<string>,
    directorLine: Option<string>,
    organizationName: string)

  function EnsembleTypeOf(e: Ensemble): Option<string> { e.ensembleType }
  function VoiceTypeOf(e: Ensemble): Option<string> { e.voiceType }
  function AuditionedOf(e: Ensemble): Option<string> { e.auditioned }
  function PayLevelOf(e: Ensemble): Option<string> { e.payLevel }
  function DirectorOf(e: Ensemble): Option<string> { e.director }

  /** The card for an organization and its ensembles. */
  function CardOf(o: Organization, ens: seq<Ensemble>): (c: Card)
    ensures c.title == DisplayName(o)
    ensures c.mission.None? <==> Falsy(o.missionStatement)
    ensures c.mission.Some? ==> c.mission.value == TruncateMission(o.missionStatement.value)
    ensures |c.ensembleTypeBadges| <= 2 && |c.auditionBadges| <= 1
    ensures |c.voiceTypeBadges| <= 1 && |c.payLevelBadges| <= 1
    ensures c.organizationName == o.name
  {
    var auditions := Take(DistinctValues(Column(ens, AuditionedOf)), 1);
    Card(
      DisplayName(o),
      if Falsy(o.missionStatement) then None else Some(TruncateMission(o.missionStatement.value)),
      Take(DistinctValues(Column(ens, EnsembleTypeOf)), 2),
      seq(|auditions|, i requires 0 <= i < |auditions| => AuditionBadge(auditions[i])),
      Take(DistinctValues(Column(ens, VoiceTypeOf)), 1),
      Take(DistinctValues(Column(ens, PayLevelOf)), 1),
      DirectorLine(DistinctValues(Column(ens, DirectorOf))),
      o.name)
  }

  /** The first `n` distinct values of a column: each is a truthy value some
      ensemble holds, none repeats, and there is at least one when some
      ensemble holds a truthy value. */
  lemma {:induction false} BadgeValues(ens: seq<Ensemble>, field: Ensemble -> Option<string>, n: nat)
    requires n >= 1
    ensures var b := Take(DistinctValues(Column(ens, field)), n);
      && (forall v :: v in b ==> v != "" && exists e :: e in ens && field(e) == Some(v))
      && (forall i, j :: 0 <= i < j < |b| ==> b[i] != b[j])
      && (|b| >= 1 <==> exists e :: e in ens && !Falsy(field(e)))
  {
    var d := DistinctValues(Column(ens, field));
    var b := Take(d, n);
    ColumnMembers(ens, field);
    forall v | v in b ensures v != "" && exists e :: e in ens && field(e) == Some(v) {
      assert v in d;
    }
    if exists e :: e in ens && !Falsy(field(e)) {
      var e :| e in ens && !Falsy(field(e));
      assert field(e).value in d;
    }
    if |b| >= 1 {
      assert d[0] in d;
    }
  }

  /** What the card's badges and director line show, in terms of the
      organization's ensembles. */
  lemma {:induction false} CardShowsEnsembleValues(o: Organization, ens: seq<Ensemble>)
    ensures var c := CardOf(o, ens);
      && (forall t :: t in c.ensembleTypeBadges ==> t != "" && exists e :: e in ens && e.ensembleType == Some(t))
      && (forall i, j :: 0 <= i < j < |c.ensembleTypeBadges| ==> c.ensembleTypeBadges[i] != c.ensembleTypeBadges[j])
      && ((exists e :: e in ens && !Falsy(e.ensembleType)) <==> |c.ensembleTypeBadges| >= 1)
      && (forall v :: v in c.voiceTypeBadges ==> v != "" && exists e :: e in ens && e.voiceType == Some(v))
      && (forall p :: p in c.payLevelBadges ==> p != "" && exists e :: e in ens && e.payLevel == Some(p))
      && ((exists e :: e in ens && !Falsy(e.auditioned)) <==> |c.auditionBadges| == 1)
      && (c.directorLine.None? <==> forall e :: e in ens ==> Falsy(e.director))
  {
    var c := CardOf(o, ens);
    assert c.ensembleTypeBadges == Take(DistinctValues(Column(ens, EnsembleTypeOf)), 2);
    assert c.voiceTypeBadges == Take(DistinctValues(Column(ens, VoiceTypeOf)), 1);
    assert c.payLevelBadges == Take(DistinctValues(Column(ens, PayLevelOf)), 1);
    assert |c.auditionBadges| == |Take(DistinctValues(Column(ens, AuditionedOf)), 1)|;
    assert c.directorLine == DirectorLine(DistinctValues(Column(ens, DirectorOf)));
    BadgeValues(ens, EnsembleTypeOf, 2);
    BadgeValues(ens, VoiceTypeOf, 1);
    BadgeValues(ens, PayLevelOf, 1);
    BadgeValues(ens, AuditionedOf, 1);
    DirectorLineShown(ens);
  }

  /** The director line is missing exactly when no ensemble names a
      director. */
  lemma DirectorLineShown(ens: seq<Ensemble>)
    ensures DirectorLine(DistinctValues(Column(ens, DirectorOf))).None? <==> forall e :: e in ens ==> Falsy(e.director)
  {
    var directors := DistinctValues(Column(ens, DirectorOf));
    ColumnMembers(ens, DirectorOf);
    if exists e :: e in ens && !Falsy(e.director) {
      var e :| e in ens && !Falsy(e.director);
      assert DirectorOf(e).value in directors;
    }
    if directors != [] {
      assert directors[0] in directors;
    }
  }

  /** A value occurs in a column exactly when some ensemble holds it. */
  lemma ColumnMembers(ens: seq<Ensemble>, field: Ensemble -> Option<string>)
    ensures forall v :: v in Column(ens, field) <==> exists e :: e in ens && field(e) == v
  {
    var c := Column(ens, field);
    forall v ensures v in c <==> exists e :: e in ens && field(e) == v {
      if v in c {
        var i :| 0 <= i < |c| && c[i] == v;
        assert ens[i] in ens;
      }
      if exists e :: e in ens && field(e) == v {
        var e :| e in ens && field(e) == v;
        var i :| 0 <= i < |ens| && ens[i] == e;
        assert c[i] == v;
      }
    }
  }
}

=== FILE: organization_detail.dfy ===
/** The organization detail page: the ensembles header, and for each
    ensemble its audition badge, voice-part display and restrictions line. */
module OrganizationDetail {
  import opened Wrappers
  import opened Text
  import opened Seqs
  import opened Schema
  import opened Display
  import JsonStorage
  import Directory

  // ---------------------------------------------------------------------
  // Restrictions
  // ---------------------------------------------------------------------

  /** A restriction counts when it is set, non-empty and not the literal
      "None". */
  predicate Restricts(r: Option<string>) {
    !Falsy(r) && r.value != "None"
  }

  function IsRestriction(s: string): bool {
    s != ""
  }

  /** The restrictions line: the age and other restrictions that count,
      in that order, joined by ", ", or "None" when neither counts. */
  function Restrictions(age: Option<string>, other: Option<string>): (r: string)
    ensures Restricts(age) && !Restricts(other) ==> r == age.value
    ensures !Restricts(age) && Restricts(other) ==> r == other.value
    ensures Restricts(age) && Restricts(other) ==> r == age.value + ", " + other.value
    ensures !Restricts(age) && !Restricts(other) ==> r == "None"
  {
    var candidates := [if Restricts(age) then age.value else "",
                       if Restricts(other) then other.value else ""];
    var survivors := Filter(candidates, IsRestriction);
    FilterCons(candidates[0], [candidates[1]], IsRestriction);
    FilterCons(candidates[1], [], IsRestriction);
    assert candidates == [candidates[0]] + [candidates[1]];
    assert [candidates[1]] == [candidates[1]] + [];
    assert survivors == (if Restricts(age) then [age.value] else [])
                        + (if Restricts(other) then [other.value] else []);
    var joined := Join(survivors, ", ");
    assert Restricts(age) && Restricts(other) ==> joined == age.value + ", " + other.value by {
      if Restricts(age) && Restricts(other) {
        assert survivors == [age.value, other.value];
        JoinTwo(age.value, other.value, ", ");
      }
    }
    if joined == "" then "None" else joined
  }

  /** The line reads "None" exactly when neither input restricts: a single
      survivor is never "None", and two survivors contain ", ". */
  lemma RestrictionsNoneIff(age: Option<string>, other: Option<string>)
    ensures Restrictions(age, other) == "None" <==> !Restricts(age) && !Restricts(other)
  {
    if Restricts(age) && Restricts(other) {
      var r := Restrictions(age, other);
      var k := |age.value|;
      assert r[k] == ',';
      assert "None"[1] != ',' && "None"[2] != ',' && "None"[3] != ',';
    }
  }

  // ---------------------------------------------------------------------
  // Voice type and audition
  // ---------------------------------------------------------------------

  /** What the detail page shows for a voice type. */
  datatype VoiceView = ChildLabel | PartGrid(parts: Parts)

  /** `ensemble.voiceType && getVoiceTypeDisplay(ensemble.voiceType)`:
      nothing for a missing or empty voice type, a Child label for "Child",
      otherwise the part grid. */
  function VoiceDisplay(voiceType: Option<string>): (r: Option<VoiceView>)
    ensures r.None? <==> Falsy(voiceType)
    ensures r == Some(ChildLabel) <==> voiceType == Some("Child")
    ensures r.Some? && r.value.PartGrid? && IsVoicing(voiceType.value) ==>
      Letters(r.value.parts) == set c | c in voiceType.value
    ensures r.Some? && r.value.PartGrid? && !IsVoicing(voiceType.value) ==> Letters(r.value.parts) == {}
  {
    if Falsy(voiceType) then None
    else if voiceType.value == "Child" then Some(ChildLabel)
    else Some(PartGrid(Highlights(voiceType.value)))
  }

  /** The directory and the detail page agree on the parts they highlight;
      they differ only in that the detail page labels "Child" ensembles. */
  lemma VoiceDisplaysAgree(voiceType: Option<string>)
    ensures Directory.VoiceBadge(voiceType).Some? <==> VoiceDisplay(voiceType).Some? && VoiceDisplay(voiceType).value.PartGrid?
    ensures Directory.VoiceBadge(voiceType).Some? ==>
      VoiceDisplay(voiceType) == Some(PartGrid(Directory.VoiceBadge(voiceType).value))
  {
  }

  /** The audition badge: shown only when `auditioned` is set, reading
      "Auditioned" for "True" and "Non-Auditioned" for anything else. */
  function AuditionLabel(auditioned: Option<string>): (r: Option<string>)
    ensures r.None? <==> Falsy(auditioned)
    ensures r == Some("Auditioned") <==> auditioned == Some("True")
    ensures r.Some? && r != Some("Auditioned") ==> r == Some("Non-Auditioned")
  {
    if Falsy(auditioned) then None
    else if auditioned.value == "True" then Some("Auditioned")
    else Some("Non-Auditioned")
  }

  // ---------------------------------------------------------------------
  // The page
  // ---------------------------------------------------------------------

  /** One ensemble's section; text fields render `value || ""`. */
  datatype Section = Section(
    name: string,
    ensembleType: Option<string>,
    audition: Option<string>,
    payLevel: Option<string>,
    director: string,
    location: string,
    ageGroup: string,
    voice: Option<VoiceView>,
    season: string,
    rehearsals: string,
    restrictions: string,
    website: Option<string>)

  function SectionOf(e: Ensemble): (s: Section)
    ensures s.name == e.name
    ensures s.audition == AuditionLabel(e.auditioned) && s.voice == VoiceDisplay(e.voiceType)
    ensures s.restrictions == Restrictions(e.ageRestrictions, e.otherRestrictions)
    ensures s.director == "" <==> Falsy(e.director)
  {
    Section(e.name, OrNull(e.ensembleType), AuditionLabel(e.auditioned), OrNull(e.payLevel),
            OrEmpty(e.director), OrEmpty(e.location), OrEmpty(e.ageGroup), VoiceDisplay(e.voiceType),
            OrEmpty(e.season), OrEmpty(e.rehearsalDetails),
            Restrictions(e.ageRestrictions, e.otherRestrictions), OrNull(e.website))
  }

  datatype Page = Page(headerCount: nat, showEmptyMessage: bool, sections: seq<Section>)

  /** The ensembles card: the header shows how many ensembles were joined,
      the empty message appears exactly when there are none, and there is
      one section per ensemble in stored order. */
  function PageOf(o: OrganizationWithEnsembles): (p: Page)
    ensures p.headerCount == |o.ensembles| == |p.sections|
    ensures p.showEmptyMessage <==> o.ensembles == []
    ensures forall i :: 0 <= i < |o.ensembles| ==> p.sections[i] == SectionOf(o.ensembles[i])
  {
    var sections := seq(|o.ensembles|, i requires 0 <= i < |o.ensembles| => SectionOf(o.ensembles[i]));
    Page(|o.ensembles|, |o.ensembles| == 0, sections)
  }

  /** The detail page loads its organization by URL slug; the count in its
      header is the count the directory uses for that organization's
      subtitle. */
  lemma {:induction false} DetailCountMatchesDirectory(store: JsonStorage.Store, slug: string)
    requires JsonStorage.GetOrganizationBySlug(store, slug).Ok?
    requires JsonStorage.GetOrganizationBySlug(store, slug).value.Some?
    ensures var o := JsonStorage.GetOrganizationBySlug(store, slug).value.value;
            && o.organization.urlSlug == Some(slug)
            && PageOf(o).headerCount
               == Directory.EnsembleCount(JsonStorage.GetEnsembles(store).value, o.organization.id)
  {
    var got := JsonStorage.GetOrganizationBySlug(store, slug);
    assert got.Ok? && got.value.Some?;
  }
}

=== FILE: routes.dfy ===
/** The REST layer over the store: route registration, the one-flag admin
    session (login, logout, status, and the `requireAuth` gate on the two
    create routes) and the mapping of storage outcomes to HTTP statuses.
    A request handler is a function from the session, the store and the
    request's parameters to a response and, for the creates, the new store. */
module Routes {
  import opened Wrappers
  import opened Text
  import opened Schema
  import opened JsonStorage

  /** The configuration `registerRoutes` reads from the environment. */
  datatype Config = Config(adminPassword: string)

  /** `registerRoutes`: refuses to start without a (truthy) ADMIN_PASSWORD. */
  function RegisterRoutes(adminPasswordVar: Option<string>): (r: Result<Config, string>)
    ensures r.Ok? <==> !Falsy(adminPasswordVar)
    ensures r.Ok? ==> Some(r.value.adminPassword) == adminPasswordVar && r.value.adminPassword != ""
  {
    if Falsy(adminPasswordVar) then
      Err("ADMIN_PASSWORD environment variable is required. Please set it in your .env file or environment variables.")
    else Ok(Config(adminPasswordVar.value))
  }

  /** `req.session`: absent, or an object with an optional
      `isAuthenticated` flag and possibly a `destroy` method. */
  datatype Session =
    | NoSession
    | Session(isAuthenticated: Option<bool>, canDestroy: bool)

  /** `req.session?.isAuthenticated` is truthy. */
  predicate IsAuthenticated(s: Session) {
    s.Session? && s.isAuthenticated == Some(true)
  }

  datatype Payload =
    | Message(text: string)
    | AuthStatus(isAuthenticated: bool)
    | OrganizationList(organizations: seq<Organization>)
    | OrganizationDetail(detail: OrganizationWithEnsembles)
    | EnsembleList(ensembles: seq<Ensemble>)
    | CreatedOrganization(organization: Organization)
    | CreatedEnsemble(ensemble: Ensemble)

  datatype Response = Response(status: nat, payload: Payload)

  // ---------------------------------------------------------------------
  // Session
  // ---------------------------------------------------------------------

  /** `POST /api/admin/login`: 400 without a password, 401 for a wrong one
      (the session is left as it was), otherwise the session (created if
      absent) is marked authenticated. */
  function Login(cfg: Config, session: Session, password: Option<string>): (r: (Response, Session))
    ensures Falsy(password) ==> r.0.status == 400 && r.1 == session
    ensures !Falsy(password) && password.value != cfg.adminPassword ==> r.0.status == 401 && r.1 == session
    ensures r.0.status == 200 <==> password == Some(cfg.adminPassword) && cfg.adminPassword != ""
    ensures r.0.status == 200 ==> IsAuthenticated(r.1)
    ensures r.0.status == 200 && session.Session? ==> r.1.canDestroy == session.canDestroy
    ensures r.0.status != 200 ==> r.1 == session
  {
    if Falsy(password) then (Response(400, Message("Password is required")), session)
    else if password.value != cfg.adminPassword then (Response(401, Message("Invalid password")), session)
    else
      var s := match session
        case NoSession => Session(Some(true), false)
        case Session(_, canDestroy) => Session(Some(true), canDestroy);
      (Response(200, Message("Login successful")), s)
  }

  /** `POST /api/admin/logout`: the flag is cleared on both branches; when
      the session can be destroyed and destroying it fails, the answer is
      500. */
  function Logout(session: Session, destroyFails: bool): (r: (Response, Session))
    ensures !IsAuthenticated(r.1)
    ensures r.0.status == 500 <==> session.Session? && session.canDestroy && destroyFails
    ensures r.0.status == 200 || r.0.status == 500
    ensures r.1.Session? <==> session.Session?
  {
    match session
    case NoSession => (Response(200, Message("Logout successful")), NoSession)
    case Session(_, canDestroy) =>
      var s := Session(Some(false), canDestroy);
      if canDestroy && destroyFails then (Response(500, Message("Logout failed")), s)
      else (Response(200, Message("Logout successful")), s)
  }

  /** `GET /api/admin/status`: the flag, false when unset. */
  function Status(session: Session): (r: Response)
    ensures r.status == 200
    ensures r.payload == AuthStatus(true) <==> IsAuthenticated(session)
    ensures r.payload.AuthStatus?
  {
    var flag := match session
      case NoSession => false
      case Session(f, _) => f.GetOr(false);
    Response(200, AuthStatus(flag))
  }

  /** `requireAuth`: the request reaches its handler only when the session
      is authenticated; otherwise the answer is 401. */
  function RequireAuth(session: Session): (r: Option<Response>)
    ensures r.None? <==> IsAuthenticated(session)
    ensures r.Some? ==> r.value.status == 401
  {
    if IsAuthenticated(session) then None
    else Some(Response(401, Message("Authentication required")))
  }

  // ---------------------------------------------------------------------
  // Public reads
  // ---------------------------------------------------------------------

  /** `GET /api/organizations`. */
  function ListOrganizations(store: Store): (r: Response)
    ensures r.status == 500 <==> GetOrganizations(store).Err?
    ensures r.status == 200 ==> r.payload == OrganizationList(GetOrganizations(store).value)
    ensures r.status == 200 || r.status == 500
  {
    match GetOrganizations(store)
    case Err(_) => Response(500, Message("Failed to fetch organizations"))
    case Ok(orgs) => Response(200, OrganizationList(orgs))
  }

  /** `GET /api/organizations/:id`: 404 exactly when the store returns
      none, 500 when it throws. */
  function OrganizationById(store: Store, id: string): (r: Response)
    ensures r.status == 404 <==> GetOrganization(store, id) == Ok(None)
    ensures r.status == 500 <==> GetOrganization(store, id).Err?
    ensures r.status == 200 <==> GetOrganization(store, id).Ok? && GetOrganization(store, id).value.Some?
    ensures r.status == 200 ==> r.payload == OrganizationDetail(GetOrganization(store, id).value.value)
  {
    match GetOrganization(store, id)
    case Err(_) => Response(500, Message("Failed to fetch organization"))
    case Ok(None) => Response(404, Message("Organization not found"))
    case Ok(Some(detail)) => Response(200, OrganizationDetail(detail))
  }

  /** `GET /api/orgs/:slug`: 404 exactly when the store returns none, 500
      when it throws. */
  function OrganizationBySlug(store: Store, slug: string): (r: Response)
    ensures r.status == 404 <==> GetOrganizationBySlug(store, slug) == Ok(None)
    ensures r.status == 500 <==> GetOrganizationBySlug(store, slug).Err?
    ensures r.status == 200 <==> GetOrganizationBySlug(store, slug).Ok? && GetOrganizationBySlug(store, slug).value.Some?
    ensures r.status == 200 ==> r.payload == OrganizationDetail(GetOrganizationBySlug(store, slug).value.value)
  {
    match GetOrganizationBySlug(store, slug)
    case Err(_) => Response(500, Message("Failed to fetch organization"))
    case Ok(None) => Response(404, Message("Organization not found"))
    case Ok(Some(detail)) => Response(200, OrganizationDetail(detail))
  }

  /** `GET /api/ensembles`. */
  function ListEnsembles(store: Store): (r: Response)
    ensures r.status == 500 <==> GetEnsembles(store).Err?
    ensures r.status == 200 ==> r.payload == EnsembleList(GetEnsembles(store).value)
    ensures r.status == 200 || r.status == 500
  {
    match GetEnsembles(store)
    case Err(_) => Response(500, Message("Failed to fetch ensembles"))
    case Ok(ens) => Response(200, EnsembleList(ens))
  }

  /** `GET /api/organizations/:id/ensembles`: never 404, an unknown id
      gives the empty list. */
  function EnsemblesOfOrganization(store: Store, id: string): (r: Response)
    ensures r.status == 500 <==> GetEnsemblesByOrganization(store, id).Err?
    ensures r.status == 200 ==> r.payload == EnsembleList(GetEnsemblesByOrganization(store, id).value)
    ensures r.status == 200 || r.status == 500
  {
    match GetEnsemblesByOrganization(store, id)
    case Err(_) => Response(500, Message("Failed to fetch ensembles"))
    case Ok(ens) => Response(200, EnsembleList(ens))
  }

  // ---------------------------------------------------------------------
  // Protected creates
  // ---------------------------------------------------------------------

  /** `POST /api/admin/organizations`: 401 without touching the store
      unless authenticated; every storage exception, validation included,
      becomes 500. */
  function PostOrganization(session: Session, store: Store, body: NewOrganization, freshId: string): (r: (Response, Store))
    ensures !IsAuthenticated(session) ==> r.0.status == 401 && r.1 == store
    ensures IsAuthenticated(session) ==>
      && (r.0.status == 500 <==> CreateOrganization(store, body, freshId).0.Err?)
      && r.1 == CreateOrganization(store, body, freshId).1
    ensures r.0.status == 200 ==>
      IsAuthenticated(session) && r.0.payload == CreatedOrganization(CreateOrganization(store, body, freshId).0.value)
    ensures r.0.status in {200, 401, 500}
  {
    match RequireAuth(session)
    case Some(denied) => (denied, store)
    case None =>
      var (res, store') := CreateOrganization(store, body, freshId);
      match res
      case Err(_) => (Response(500, Message("Failed to create organization")), store')
      case Ok(org) => (Response(200, CreatedOrganization(org)), store')
  }

  /** `POST /api/admin/ensembles`: 401 without touching the store unless
      authenticated; every storage exception, a missing organization
      included, becomes 500. */
  function PostEnsemble(session: Session, store: Store, body: NewEnsemble, freshId: string): (r: (Response, Store))
    ensures !IsAuthenticated(session) ==> r.0.status == 401 && r.1 == store
    ensures IsAuthenticated(session) ==>
      && (r.0.status == 500 <==> CreateEnsemble(store, body, freshId).0.Err?)
      && r.1 == CreateEnsemble(store, body, freshId).1
    ensures r.0.status == 200 ==>
      IsAuthenticated(session) && r.0.payload == CreatedEnsemble(CreateEnsemble(store, body, freshId).0.value)
    ensures r.0.status in {200, 401, 500}
  {
    match RequireAuth(session)
    case Some(denied) => (denied, store)
    case None =>
      var (res, store') := CreateEnsemble(store, body, freshId);
      match res
      case Err(_) => (Response(500, Message("Failed to create ensemble")), store')
      case Ok(e) => (Response(200, CreatedEnsemble(e)), store')
  }

  // ---------------------------------------------------------------------
  // Session sequences
  // ---------------------------------------------------------------------

  /** Logging in with the configured password opens the create routes;
      logging out closes them again, whether or not destroying the session
      failed. */
  lemma {:induction false} LoginThenLogoutGatesCreates(cfg: Config, session: Session, store: Store,
                                                      body: NewOrganization, freshId: string, destroyFails: bool)
    requires cfg.adminPassword != ""
    ensures var (_, s1) := Login(cfg, session, Some(cfg.adminPassword));
            PostOrganization(s1, store, body, freshId).0.status != 401
    ensures var (_, s1) := Login(cfg, session, Some(cfg.adminPassword));
            var (_, s2) := Logout(s1, destroyFails);
            PostOrganization(s2, store, body, freshId) == (Response(401, Message("Authentication required")), store)
  {
    var (_, s1) := Login(cfg, session, Some(cfg.adminPassword));
    assert IsAuthenticated(s1);
    var (_, s2) := Logout(s1, destroyFails);
    assert !IsAuthenticated(s2);
  }

  /** No password but the configured one authenticates a session. */
  lemma OnlyTheSecretAuthenticates(cfg: Config, session: Session, password: Option<string>)
    requires !IsAuthenticated(session)
    requires IsAuthenticated(Login(cfg, session, password).1)
    ensures password == Some(cfg.adminPassword)
  {
  }

  // ---------------------------------------------------------------------
  // Route table
  // ---------------------------------------------------------------------

  datatype Method = GET | POST | PUT

  /** The routes `registerRoutes` installs, with their path parameters. */
  datatype Route =
    | LoginRoute
    | LogoutRoute
    | StatusRoute
    | OrganizationsRoute
    | OrganizationByIdRoute(id: string)
    | OrganizationBySlugRoute(slug: string)
    | EnsemblesRoute
    | OrganizationEnsemblesRoute(organizationId: string)
    | CreateOrganizationRoute
    | CreateEnsembleRoute

  /** A path parameter: one non-empty segment. */
  predicate IsSegment(s: string) {
    s != "" && '/' !in s
  }

  /** `path` is `prefix` followed by one segment. */
  predicate SegmentAfter(path: string, prefix: string) {
    |prefix| < |path| && path[..|prefix|] == prefix && IsSegment(path[|prefix|..])
  }

  /** `path` is `prefix`, one segment, then `suffix`. */
  predicate SegmentBetween(path: string, prefix: string, suffix: string) {
    && |prefix| + |suffix| < |path|
    && path[..|prefix|] == prefix
    && path[|path| - |suffix|..] == suffix
    && IsSegment(path[|prefix|..|path| - |suffix|])
  }

  /** Which registered route, if any, handles a request (exact,
      case-sensitive matching of the path). */
  function MatchRoute(m: Method, path: string): (r: Option<Route>)
    ensures m == PUT ==> r.None?
    ensures r == Some(CreateOrganizationRoute) <==> m == POST && path == "/api/admin/organizations"
    ensures r == Some(CreateEnsembleRoute) <==> m == POST && path == "/api/admin/ensembles"
    ensures r.Some? && r.value.OrganizationByIdRoute? ==> IsSegment(r.value.id)
  {
    match m
    case PUT => None
    case POST =>
      if path == "/api/admin/login" then Some(LoginRoute)
      else if path == "/api/admin/logout" then Some(LogoutRoute)
      else if path == "/api/admin/organizations" then Some(CreateOrganizationRoute)
      else if path == "/api/admin/ensembles" then Some(CreateEnsembleRoute)
      else None
    case GET =>
      if path == "/api/admin/status" then Some(StatusRoute)
      else if path == "/api/organizations" then Some(OrganizationsRoute)
      else if path == "/api/ensembles" then Some(EnsemblesRoute)
      else if SegmentAfter(path, "/api/organizations/") then
        Some(OrganizationByIdRoute(path[|"/api/organizations/"|..]))
      else if SegmentBetween(path, "/api/organizations/", "/ensembles") then
        Some(OrganizationEnsemblesRoute(path[|"/api/organizations/"|..|path| - |"/ensembles"|]))
      else if SegmentAfter(path, "/api/orgs/") then
        Some(OrganizationBySlugRoute(path[|"/api/orgs/"|..]))
      else None
  }

  /** A lookup by id reached through the route table never hits the store's
      empty-id rejection: the answer is 200, 404 or, on a read failure, 500. */
  lemma RoutedLookupNeverRejectsId(path: string, store: Store)
    requires MatchRoute(GET, path).Some? && MatchRoute(GET, path).value.OrganizationByIdRoute?
    ensures GetOrganization(store, MatchRoute(GET, path).value.id) != Err(InvalidOrganizationId)
  {
  }
}

=== FILE: schema.dfy ===
/** Record shapes of the directory: the `organizations` and `ensembles`
    tables, their insert shapes (the rows without `id`) and the joined view
    of an organization with its ensembles. Every column except `id`, `name`
    and `organizationId` is nullable text, modelled as `Option<string>`;
    `auditioned` is text ("True"/"False"), not a boolean. */
module Schema {
  import opened Wrappers

  datatype Organization = Organization(
    id: string,
    name: string,
    shortName: Option<string>,
    urlSlug: Option<string>,
    website: Option<string>,
    socialMedia: Option<string>,
    email: Option<string>,
    religiousAffiliation: Option<string>,
    missionStatement: Option<string>,
    goals: Option<string>)

  datatype Ensemble = Ensemble(
    id: string,
    name: string,
    shortName: Option<string>,
    organizationId: string,
    organizationName: Option<string>,
    website: Option<string>,
    director: Option<string>,
    ageGroup: Option<string>,
    voiceType: Option<string>,
    ensembleType: Option<string>,
    location: Option<string>,
    auditioned: Option<string>,
    payLevel: Option<string>,
    ageRestrictions: Option<string>,
    otherRestrictions: Option<string>,
    season: Option<string>,
    rehearsalDetails: Option<string>,
    description: Option<string>)

  /** The insert shape of an organization: every column but `id`. */
  datatype NewOrganization = NewOrganization(
    name: string,
    shortName: Option<string>,
    urlSlug: Option<string>,
    website: Option<string>,
    socialMedia: Option<string>,
    email: Option<string>,
    religiousAffiliation: Option<string>,
    missionStatement: Option<string>,
    goals: Option<string>)

  /** The insert shape of an ensemble: every column but `id`. */
  datatype NewEnsemble = NewEnsemble(
    name: string,
    shortName: Option<string>,
    organizationId: string,
    organizationName: Option<string>,
    website: Option<string>,
    director: Option<string>,
    ageGroup: Option<string>,
    voiceType: Option<string>,
    ensembleType: Option<string>,
    location: Option<string>,
    auditioned: Option<string>,
    payLevel: Option<string>,
    ageRestrictions: Option<string>,
    otherRestrictions: Option<string>,
    season: Option<string>,
    rehearsalDetails: Option<string>,
    description: Option<string>)

  /** An organization row joined with a list of ensembles. */
  datatype OrganizationWithEnsembles =
    OrganizationWithEnsembles(organization: Organization, ensembles: seq<Ensemble>)

  /** Drops the `id` column of an organization row. */
  function OrganizationFields(o: Organization): NewOrganization {
    NewOrganization(o.name, o.shortName, o.urlSlug, o.website, o.socialMedia,
                    o.email, o.religiousAffiliation, o.missionStatement, o.goals)
  }

  /** Drops the `id` column of an ensemble row. */
  function EnsembleFields(e: Ensemble): NewEnsemble {
    NewEnsemble(e.name, e.shortName, e.organizationId, e.organizationName,
                e.website, e.director, e.ageGroup, e.voiceType, e.ensembleType,
                e.location, e.auditioned, e.payLevel, e.ageRestrictions,
                e.otherRestrictions, e.season, e.rehearsalDetails, e.description)
  }

  /** The organization row made of an insert shape and an id. */
  function OrganizationRow(n: NewOrganization, id: string): (o: Organization)
    ensures o.id == id && OrganizationFields(o) == n
  {
    Organization(id, n.name, n.shortName, n.urlSlug, n.website, n.socialMedia,
                 n.email, n.religiousAffiliation, n.missionStatement, n.goals)
  }

  /** The ensemble row made of an insert shape and an id. */
  function EnsembleRow(n: NewEnsemble, id: string): (e: Ensemble)
    ensures e.id == id && EnsembleFields(e) == n
  {
    Ensemble(id, n.name, n.shortName, n.organizationId, n.organizationName,
             n.website, n.director, n.ageGroup, n.voiceType, n.ensembleType,
             n.location, n.auditioned, n.payLevel, n.ageRestrictions,
             n.otherRestrictions, n.season, n.rehearsalDetails, n.description)
  }

  /** A row is exactly its id plus its insert shape. */
  lemma RowIsIdPlusFields(o: Organization, e: Ensemble)
    ensures OrganizationRow(OrganizationFields(o), o.id) == o
    ensures EnsembleRow(EnsembleFields(e), e.id) == e
  {
  }

  /** No two rows of a collection share an id. */
  predicate UniqueOrganizationIds(orgs: seq<Organization>) {
    forall i, j :: 0 <= i < j < |orgs| ==> orgs[i].id != orgs[j].id
  }

  predicate UniqueEnsembleIds(ens: seq<Ensemble>) {
    forall i, j :: 0 <= i < j < |ens| ==> ens[i].id != ens[j].id
  }

  /** The foreign key `ensembles.organizationId -> organizations.id`. */
  predicate ReferencesResolve(orgs: seq<Organization>, ens: seq<Ensemble>) {
    forall e :: e in ens ==> exists o :: o in orgs && o.id == e.organizationId
  }
}

=== FILE: seqs.dfy ===
/** The array operations the source uses on record lists: `filter`, `find`
    and a stable comparison sort keyed by one or two strings. */
module Seqs {
  import opened Wrappers
  import opened Text

  // ---------------------------------------------------------------------
  // filter
  // ---------------------------------------------------------------------

  /** `xs.filter(p)`: the elements satisfying `p`, in their original order. */
  function Filter<T(!new)>(xs: seq<T>, p: T -> bool): (r: seq<T>)
    ensures |r| <= |xs|
    ensures forall x {:trigger x in r} :: x in r <==> x in xs && p(x)
  {
    if xs == [] then []
    else
      var rest := Filter(xs[1..], p);
      assert xs == [xs[0]] + xs[1..];
      if p(xs[0]) then [xs[0]] + rest else rest
  }

  /** Filtering keeps every satisfying element exactly as often as it
      occurs and drops the others: it adds no duplicates. */
  lemma {:induction false} FilterMultiset<T(!new)>(xs: seq<T>, p: T -> bool, x: T)
    ensures multiset(Filter(xs, p))[x] == if p(x) then multiset(xs)[x] else 0
  {
    if xs != [] {
      FilterMultiset(xs[1..], p, x);
      assert xs == [xs[0]] + xs[1..];
    }
  }

  lemma FilterCons<T(!new)>(x: T, xs: seq<T>, p: T -> bool)
    ensures Filter([x] + xs, p) == (if p(x) then [x] else []) + Filter(xs, p)
  {
    assert ([x] + xs)[1..] == xs;
  }

  /** Filtering commutes with concatenation, so it keeps relative order. */
  lemma {:induction false} FilterAppend<T(!new)>(a: seq<T>, b: seq<T>, p: T -> bool)
    ensures Filter(a + b, p) == Filter(a, p) + Filter(b, p)
  {
    if a == [] {
      assert a + b == b;
    } else {
      var x, tail := a[0], a[1..];
      var head := if p(x) then [x] else [];
      assert Filter(a + b, p) == head + Filter(tail + b, p) by {
        assert a + b == [x] + (tail + b);
        FilterCons(x, tail + b, p);
      }
      assert Filter(a, p) == head + Filter(tail, p) by {
        assert a == [x] + tail;
        FilterCons(x, tail, p);
      }
      assert Filter(tail + b, p) == Filter(tail, p) + Filter(b, p) by {
        FilterAppend(tail, b, p);
      }
    }
  }

  /** Filtering a list whose every element satisfies `p` returns it whole. */
  lemma {:induction false} FilterKeepsAll<T(!new)>(xs: seq<T>, p: T -> bool)
    requires forall i :: 0 <= i < |xs| ==> p(xs[i])
    ensures Filter(xs, p) == xs
  {
    if xs != [] {
      FilterKeepsAll(xs[1..], p);
      FilterCons(xs[0], xs[1..], p);
      assert xs == [xs[0]] + xs[1..];
    }
  }

  // ---------------------------------------------------------------------
  // find
  // ---------------------------------------------------------------------

  /** The index of the first element satisfying `p` (`findIndex`). */
  function FindIndex<T>(xs: seq<T>, p: T -> bool): (r: Option<nat>)
    ensures r.Some? ==> r.value < |xs| && p(xs[r.value])
    ensures r.Some? ==> forall j :: 0 <= j < r.value ==> !p(xs[j])
    ensures r.None? ==> forall j :: 0 <= j < |xs| ==> !p(xs[j])
  {
    if xs == [] then None
    else if p(xs[0]) then Some(0)
    else
      match FindIndex(xs[1..], p)
      case None => None
      case Some(i) => Some(i + 1)
  }

  /** `xs.find(p)`: the first element satisfying `p`, or undefined. */
  function Find<T>(xs: seq<T>, p: T -> bool): (r: Option<T>)
    ensures r.None? <==> forall j :: 0 <= j < |xs| ==> !p(xs[j])
    ensures r.Some? ==> r.value in xs && p(r.value)
    ensures r.Some? ==> exists i :: 0 <= i < |xs| && xs[i] == r.value
                                    && forall j :: 0 <= j < i ==> !p(xs[j])
  {
    match FindIndex(xs, p)
    case None => None
    case Some(i) => Some(xs[i])
  }

  /** `find` succeeds whenever some element satisfies the test. */
  lemma FindSomeIfAny<T>(xs: seq<T>, p: T -> bool, x: T)
    requires x in xs && p(x)
    ensures Find(xs, p).Some?
  {
    var k :| 0 <= k < |xs| && xs[k] == x;
  }

  /** `find` returns the element at the first index satisfying the test. */
  lemma FindIsFirst<T>(xs: seq<T>, p: T -> bool, i: nat)
    requires i < |xs| && p(xs[i])
    requires forall j :: 0 <= j < i ==> !p(xs[j])
    ensures Find(xs, p) == Some(xs[i])
  {
    var k := FindIndex(xs, p);
    assert k.Some? && k.value == i;
  }

  // ---------------------------------------------------------------------
  // sort
  // ---------------------------------------------------------------------

  /** A sort key: compared on `primary` first, then on `secondary`, the
      shape of the comparators passed to `Array.prototype.sort` here. */
  datatype Key = Key(primary: string, secondary: string)

  function KeyCmp(a: Key, b: Key): int {
    var c := StrCmp(a.primary, b.primary);
    if c != 0 then c else StrCmp(a.secondary, b.secondary)
  }

  predicate KeyLe(a: Key, b: Key) {
    KeyCmp(a, b) <= 0
  }

  lemma KeyCmpAntisymmetric(a: Key, b: Key)
    ensures KeyCmp(a, b) == -KeyCmp(b, a)
  {
    StrCmpAntisymmetric(a.primary, b.primary);
    StrCmpAntisymmetric(a.secondary, b.secondary);
  }

  lemma KeyLeTransitive(a: Key, b: Key, c: Key)
    requires KeyLe(a, b) && KeyLe(b, c)
    ensures KeyLe(a, c)
  {
    var c1 := StrCmp(a.primary, b.primary);
    var c2 := StrCmp(b.primary, c.primary);
    if c1 < 0 || c2 < 0 {
      StrCmpStrictTransitive(a.primary, b.primary, c.primary);
    } else {
      StrCmpZeroIff(a.primary, b.primary);
      StrCmpZeroIff(b.primary, c.primary);
      StrCmpZeroIff(a.primary, c.primary);
      StrCmpTransitive(a.secondary, b.secondary, c.secondary);
    }
  }

  /** Every earlier element's key is at most every later element's key. */
  predicate SortedByKey<T>(s: seq<T>, key: T -> Key) {
    forall i, j :: 0 <= i < j < |s| ==> KeyLe(key(s[i]), key(s[j]))
  }

  /** Inserts `x` after every element whose key is at most its own. */
  function Insert<T>(x: T, s: seq<T>, key: T -> Key): (r: seq<T>)
    ensures multiset(r) == multiset(s) + multiset{x}
  {
    if s == [] then [x]
    else if KeyCmp(key(x), key(s[0])) < 0 then [x] + s
    else
      assert s == [s[0]] + s[1..];
      [s[0]] + Insert(x, s[1..], key)
  }

  lemma {:induction false} InsertSorted<T>(x: T, s: seq<T>, key: T -> Key)
    requires SortedByKey(s, key)
    ensures SortedByKey(Insert(x, s, key), key)
  {
    if s == [] {
    } else if KeyCmp(key(x), key(s[0])) < 0 {
      var r := Insert(x, s, key);
      forall i, j | 0 <= i < j < |r| ensures KeyLe(key(r[i]), key(r[j])) {
        if i == 0 && j > 1 {
          KeyLeTransitive(key(x), key(s[0]), key(s[j - 1]));
        }
      }
    } else {
      KeyCmpAntisymmetric(key(x), key(s[0]));
      InsertSorted(x, s[1..], key);
      var t := Insert(x, s[1..], key);
      var r := [s[0]] + t;
      forall i, j | 0 <= i < j < |r| ensures KeyLe(key(r[i]), key(r[j])) {
        if i == 0 {
          assert r[j] == t[j - 1];
          assert t[j - 1] in multiset(t);
          if t[j - 1] != x {
            assert t[j - 1] in multiset(s[1..]);
            var k :| 0 <= k < |s[1..]| && s[1..][k] == t[j - 1];
            assert s[k + 1] == t[j - 1];
          }
        } else {
          assert r[i] == t[i - 1] && r[j] == t[j - 1];
        }
      }
    }
  }

  /** A stable sort of `s` by `key`: insertion sort, each element placed
      after the earlier elements it does not precede. */
  function Sort<T>(s: seq<T>, key: T -> Key): (r: seq<T>)
    ensures multiset(r) == multiset(s)
    ensures SortedByKey(r, key)
  {
    if s == [] then []
    else
      var prefix := Sort(s[..|s| - 1], key);
      InsertSorted(s[|s| - 1], prefix, key);
      assert s == s[..|s| - 1] + [s[|s| - 1]];
      Insert(s[|s| - 1], prefix, key)
  }

  /** Sorting keeps each element exactly as often as it occurs. */
  lemma SortSameElements<T>(s: seq<T>, key: T -> Key, x: T)
    ensures x in Sort(s, key) <==> x in s
    ensures |Sort(s, key)| == |s|
  {
    var r := Sort(s, key);
    assert x in r <==> x in multiset(r);
    assert |r| == |multiset(r)|;
  }
}

=== FILE: submit_group.dfy ===
/** The public "submit your group" form: an organization and contact block
    and a list of draft ensembles that can be added, removed and edited by
    id. Submitting is simulated by the page (a two-second wait), so only its
    effect on the form is modelled. */
module SubmitGroup {
  import opened Text
  import opened Seqs

  /** A draft ensemble row of the form. */
  datatype Draft = Draft(id: string, name: string, director: string, genre: string,
                         voiceType: string, ageGroup: string)

  /** The keys of a draft, any of which `updateEnsemble` may set. */
  datatype Field = Id | Name | Director | Genre | VoiceType | AgeGroup

  function Get(d: Draft, f: Field): string {
    match f
    case Id => d.id
    case Name => d.name
    case Director => d.director
    case Genre => d.genre
    case VoiceType => d.voiceType
    case AgeGroup => d.ageGroup
  }

  /** `{ ...d, [f]: v }`. */
  function Set(d: Draft, f: Field, v: string): (r: Draft)
    ensures Get(r, f) == v
    ensures forall g :: g != f ==> Get(r, g) == Get(d, g)
  {
    match f
    case Id => d.(id := v)
    case Name => d.(name := v)
    case Director => d.(director := v)
    case Genre => d.(genre := v)
    case VoiceType => d.(voiceType := v)
    case AgeGroup => d.(ageGroup := v)
  }

  datatype SubmitForm = SubmitForm(
    organizationName: string,
    website: string,
    missionStatement: string,
    contactName: string,
    contactEmail: string,
    contactPhone: string,
    ensembles: seq<Draft>,
    isSubmitting: bool,
    showSuccess: bool)

  // ---------------------------------------------------------------------
  // The ensemble list
  // ---------------------------------------------------------------------

  /** `addEnsemble`: appends one draft whose id is the clock reading
      `now` in decimal and whose other fields are empty. */
  function AddEnsemble(ds: seq<Draft>, now: nat): (r: seq<Draft>)
    ensures |r| == |ds| + 1 && r[..|ds|] == ds
    ensures r[|ds|].id == NatToString(now)
    ensures forall f :: f != Id ==> Get(r[|ds|], f) == ""
  {
    ds + [Draft(NatToString(now), "", "", "", "", "")]
  }

  function KeepsId(id: string): Draft -> bool {
    (d: Draft) => d.id != id
  }

  /** `removeEnsemble`: drops every draft with the id, keeping the rest in
      order. */
  function RemoveEnsemble(ds: seq<Draft>, id: string): (r: seq<Draft>)
    ensures forall d :: d in r <==> d in ds && d.id != id
    ensures |r| <= |ds|
  {
    Filter(ds, KeepsId(id))
  }

  /** Removal keeps each other draft as often as it occurs. */
  lemma {:induction false} RemoveEnsembleCounts(ds: seq<Draft>, id: string, d: Draft)
    ensures multiset(RemoveEnsemble(ds, id))[d] == if d.id == id then 0 else multiset(ds)[d]
  {
    FilterMultiset(ds, KeepsId(id), d);
  }

  /** Removal works piecewise, so the survivors keep their relative order. */
  lemma {:induction false} RemoveEnsembleAppend(a: seq<Draft>, b: seq<Draft>, id: string)
    ensures RemoveEnsemble(a + b, id) == RemoveEnsemble(a, id) + RemoveEnsemble(b, id)
  {
    FilterAppend(a, b, KeepsId(id));
  }

  /** Removing the draft just added undoes the add, provided the clock
      reading is not already an id in the list. */
  lemma {:induction false} RemoveUndoesAdd(ds: seq<Draft>, now: nat)
    requires forall d :: d in ds ==> d.id != NatToString(now)
    ensures RemoveEnsemble(AddEnsemble(ds, now), NatToString(now)) == ds
  {
    var id := NatToString(now);
    var added := Draft(id, "", "", "", "", "");
    assert AddEnsemble(ds, now) == ds + [added];
    RemoveEnsembleAppend(ds, [added], id);
    FilterKeepsAll(ds, KeepsId(id));
    FilterCons(added, [], KeepsId(id));
    assert [added] == [added] + [];
  }

  /** Two drafts added at the same clock reading share an id, and removing
      either removes both. */
  lemma SameTickAddsShareId(ds: seq<Draft>, now: nat)
    requires forall d :: d in ds ==> d.id != NatToString(now)
    ensures RemoveEnsemble(AddEnsemble(AddEnsemble(ds, now), now), NatToString(now)) == ds
  {
    var id := NatToString(now);
    var added := Draft(id, "", "", "", "", "");
    assert AddEnsemble(AddEnsemble(ds, now), now) == ds + [added, added];
    RemoveEnsembleAppend(ds, [added, added], id);
    FilterKeepsAll(ds, KeepsId(id));
    FilterCons(added, [added], KeepsId(id));
    FilterCons(added, [], KeepsId(id));
    assert [added] == [added] + [];
    assert [added, added] == [added] + [added];
  }

  /** `updateEnsemble`: sets field `f` of every draft with the id; other
      drafts and other fields are unchanged and the length is kept. */
  function UpdateEnsemble(ds: seq<Draft>, id: string, f: Field, v: string): (r: seq<Draft>)
    ensures |r| == |ds|
    ensures forall i :: 0 <= i < |ds| && ds[i].id != id ==> r[i] == ds[i]
    ensures forall i :: 0 <= i < |ds| && ds[i].id == id ==>
      Get(r[i], f) == v && forall g :: g != f ==> Get(r[i], g) == Get(ds[i], g)
  {
    seq(|ds|, i requires 0 <= i < |ds| => if ds[i].id == id then Set(ds[i], f, v) else ds[i])
  }

  /** Editing a field other than the id and then removing the draft is the
      same as removing it straight away. */
  lemma {:induction false} RemoveAfterUpdate(ds: seq<Draft>, id: string, f: Field, v: string)
    requires f != Id
    ensures RemoveEnsemble(UpdateEnsemble(ds, id, f, v), id) == RemoveEnsemble(ds, id)
    decreases |ds|
  {
    if ds != [] {
      var u := UpdateEnsemble(ds, id, f, v);
      assert ds == [ds[0]] + ds[1..];
      assert u == [u[0]] + u[1..];
      assert u[1..] == UpdateEnsemble(ds[1..], id, f, v);
      RemoveAfterUpdate(ds[1..], id, f, v);
      FilterCons(ds[0], ds[1..], KeepsId(id));
      FilterCons(u[0], u[1..], KeepsId(id));
      assert u[0].id == ds[0].id by {
        assert Get(u[0], Id) == Get(ds[0], Id);
      }
    }
  }

  // ---------------------------------------------------------------------
  // Submitting
  // ---------------------------------------------------------------------

  /** The form as the page first shows it. */
  const Initial := SubmitForm("", "", "", "", "", "", [], false, false)

  /** A draft row passes the browser's `required` check on its name and
      director inputs. */
  predicate DraftFilled(d: Draft) {
    d.name != "" && d.director != ""
  }

  /** The browser's `required` check on the whole form: the organization
      name, mission statement, contact name and contact email are
      non-empty, and so are the name and director of every draft row. */
  predicate RequiredFilled(st: SubmitForm) {
    st.organizationName != "" && st.missionStatement != "" && st.contactName != ""
    && st.contactEmail != ""
    && forall i :: 0 <= i < |st.ensembles| ==> DraftFilled(st.ensembles[i])
  }

  /** A submit can start only while the form is on screen (not the success
      view), its submit button is enabled (not busy) and every required
      input is filled. */
  predicate CanSubmit(st: SubmitForm) {
    !st.showSuccess && !st.isSubmitting && RequiredFilled(st)
  }

  /** Pressing submit: when the form can be submitted it becomes busy;
      otherwise the browser refuses and nothing changes. Either way
      everything entered stays as it was. */
  function StartSubmit(st: SubmitForm): (r: SubmitForm)
    ensures r.isSubmitting <==> CanSubmit(st) || st.isSubmitting
    ensures !CanSubmit(st) ==> r == st
    ensures r.organizationName == st.organizationName && r.website == st.website
    ensures r.missionStatement == st.missionStatement
    ensures r.contactName == st.contactName && r.contactEmail == st.contactEmail
    ensures r.contactPhone == st.contactPhone
    ensures r.ensembles == st.ensembles && r.showSuccess == st.showSuccess
  {
    if CanSubmit(st) then st.(isSubmitting := true) else st
  }

  /** A second press while the first submission is running does nothing. */
  lemma StartSubmitIdempotent(st: SubmitForm)
    ensures StartSubmit(StartSubmit(st)) == StartSubmit(st)
  {
  }

  /** A freshly added draft row is empty, so the form cannot be submitted
      until it is filled in or removed. */
  lemma AddedDraftBlocksSubmit(st: SubmitForm, now: nat)
    ensures !CanSubmit(st.(ensembles := AddEnsemble(st.ensembles, now)))
    ensures var s := st.(ensembles := AddEnsemble(st.ensembles, now)); StartSubmit(s) == s
  {
  }

  /** The end of the simulated submission: the success view is shown and
      every field and the ensemble list are cleared. */
  function CompleteSubmit(st: SubmitForm): (r: SubmitForm)
    ensures !r.isSubmitting && r.showSuccess
    ensures r.organizationName == "" && r.website == "" && r.missionStatement == ""
    ensures r.contactName == "" && r.contactEmail == "" && r.contactPhone == ""
    ensures r.ensembles == []
  {
    SubmitForm("", "", "", "", "", "", [], false, true)
  }

  /** Whatever was entered, a completed submission leaves the same form. */
  lemma CompleteSubmitForgetsInput(a: SubmitForm, b: SubmitForm)
    ensures CompleteSubmit(StartSubmit(a)) == CompleteSubmit(b)
  {
  }

  /** "Submit Another Group": the success view is left and the form shows
      again, with everything else as it was. */
  function SubmitAnother(st: SubmitForm): (r: SubmitForm)
    ensures !r.showSuccess
    ensures r.organizationName == st.organizationName && r.website == st.website
    ensures r.missionStatement == st.missionStatement
    ensures r.contactName == st.contactName && r.contactEmail == st.contactEmail
    ensures r.contactPhone == st.contactPhone
    ensures r.ensembles == st.ensembles && r.isSubmitting == st.isSubmitting
  {
    st.(showSuccess := false)
  }

  /** A full round — a successful submit, its completion and "Submit
      Another Group" — brings the page back to the form it first showed,
      which cannot itself be submitted until the required inputs are filled. */
  lemma SubmitRoundReturnsToInitial(st: SubmitForm)
    requires CanSubmit(st)
    ensures StartSubmit(st).isSubmitting && !st.isSubmitting
    ensures SubmitAnother(CompleteSubmit(StartSubmit(st))) == Initial
    ensures !CanSubmit(Initial) && StartSubmit(Initial) == Initial
  {
  }
}

=== FILE: text.dfy ===
/** String helpers standing in for the JavaScript string operations the
    source relies on: `trim`, truthiness of `string | null`, `toLowerCase`,
    `includes`, `localeCompare`, `join` and number formatting. */
module Text {
  import opened Wrappers

  // ---------------------------------------------------------------------
  // Whitespace and trim
  // ---------------------------------------------------------------------

  /** The characters `String.prototype.trim` removes: ECMAScript WhiteSpace
      (tab, vertical tab, form feed, space, no-break space, byte order mark
      and the space separators) and LineTerminator (LF, CR, LS, PS). */
  predicate IsJsWhitespace(c: char) {
    c == '\t' || c == '\n' || c == '\U{B}' || c == '\U{C}' || c == '\r'
    || c == ' ' || c == '\U{A0}' || c == '\U{1680}'
    || ('\U{2000}' <= c <= '\U{200A}')
    || c == '\U{2028}' || c == '\U{2029}' || c == '\U{202F}' || c == '\U{205F}'
    || c == '\U{3000}' || c == '\U{FEFF}'
  }

  /** Every character is whitespace (the empty string included). */
  predicate IsBlank(s: string) {
    forall i :: 0 <= i < |s| ==> IsJsWhitespace(s[i])
  }

  /** Drops the leading whitespace. */
  function TrimStart(s: string): (r: string)
    ensures |r| <= |s| && r == s[|s| - |r|..]
    ensures IsBlank(s[..|s| - |r|])
    ensures r == [] || !IsJsWhitespace(r[0])
  {
    if s == [] || !IsJsWhitespace(s[0]) then s
    else
      var t := TrimStart(s[1..]);
      assert s[1..][..|s| - 1 - |t|] == s[1..|s| - |t|];
      t
  }

  /** Drops the trailing whitespace. */
  function TrimEnd(s: string): (r: string)
    ensures |r| <= |s| && r == s[..|r|]
    ensures IsBlank(s[|r|..])
    ensures r == [] || !IsJsWhitespace(r[|r| - 1])
  {
    if s == [] || !IsJsWhitespace(s[|s| - 1]) then s
    else
      var t := TrimEnd(s[..|s| - 1]);
      assert s[..|s| - 1][|t|..] == s[|t|..|s| - 1];
      t
  }

  /** `r` is `s[i..j]` and everything outside that slice is whitespace. */
  predicate BlankBoundedSlice(s: string, r: string, i: int, j: int) {
    0 <= i <= j <= |s| && r == s[i..j] && IsBlank(s[..i]) && IsBlank(s[j..])
  }

  /** Trimming both ends keeps a slice of `s` bounded by blank runs. */
  lemma TrimBothIsSlice(s: string)
    ensures exists i, j :: BlankBoundedSlice(s, TrimEnd(TrimStart(s)), i, j)
  {
    var u := TrimStart(s);
    var r := TrimEnd(u);
    var i := |s| - |u|;
    var j := i + |r|;
    assert r == s[i..j] by {
      assert u == s[i..];
      assert r == u[..|r|];
    }
    assert IsBlank(s[j..]) by {
      assert s[j..] == u[|r|..];
    }
    assert BlankBoundedSlice(s, r, i, j);
  }

  /** `s.trim()`: the string without leading and trailing whitespace. */
  function Trim(s: string): (r: string)
    ensures |r| <= |s|
    ensures exists i, j :: BlankBoundedSlice(s, r, i, j)
    ensures r == [] || (!IsJsWhitespace(r[0]) && !IsJsWhitespace(r[|r| - 1]))
  {
    TrimBothIsSlice(s);
    TrimEnd(TrimStart(s))
  }

  /** `!s.trim()` holds exactly for the blank strings. */
  lemma {:induction false} TrimEmptyIffBlank(s: string)
    ensures Trim(s) == [] <==> IsBlank(s)
  {
    var u := TrimStart(s);
    if Trim(s) == [] {
      assert IsBlank(u[0..]);
      assert u == [];
      assert s[..|s|] == s;
    } else {
      var r := Trim(s);
      assert !IsJsWhitespace(r[0]);
      assert r[0] == u[0];
      assert u[0] == s[|s| - |u|];
    }
  }

  // ---------------------------------------------------------------------
  // Truthiness of an optional string
  // ---------------------------------------------------------------------

  /** A `string | null` is falsy when it is null/undefined or empty. */
  predicate Falsy(o: Option<string>) {
    o.None? || o.value == ""
  }

  /** `x || null`: an empty string becomes null. */
  function OrNull(o: Option<string>): (r: Option<string>)
    ensures r.None? <==> Falsy(o)
    ensures r.Some? ==> r == o
  {
    if Falsy(o) then None else o
  }

  /** `x || ""`: a null becomes the empty string. */
  function OrEmpty(o: Option<string>): (r: string)
    ensures r == "" <==> Falsy(o)
    ensures !Falsy(o) ==> Some(r) == o
  {
    if Falsy(o) then "" else o.value
  }

  /** `OrNull` undoes `OrEmpty` and vice versa, up to the empty string. */
  lemma OrNullOrEmptyRoundTrip(o: Option<string>, s: string)
    ensures OrNull(Some(OrEmpty(o))) == OrNull(o)
    ensures OrEmpty(OrNull(Some(s))) == s
  {
  }

  // ---------------------------------------------------------------------
  // Lower-casing and substring search
  // ---------------------------------------------------------------------

  function LowerChar(c: char): char {
    if 'A' <= c <= 'Z' then (c as int + 32) as char else c
  }

  /** `toLowerCase`, restricted to the ASCII letters. */
  function Lower(s: string): (r: string)
    ensures |r| == |s|
    ensures forall i :: 0 <= i < |s| ==> r[i] == LowerChar(s[i])
  {
    if s == [] then [] else [LowerChar(s[0])] + Lower(s[1..])
  }

  /** `needle` occurs in `hay` starting at index `i`. */
  predicate OccursAt(hay: string, needle: string, i: int) {
    0 <= i && i + |needle| <= |hay| && hay[i..i + |needle|] == needle
  }

  /** `hay.includes(needle)`. */
  predicate Contains(hay: string, needle: string) {
    (|needle| <= |hay| && hay[..|needle|] == needle)
    || (hay != [] && Contains(hay[1..], needle))
  }

  /** `Contains` holds exactly when the needle occurs at some index. */
  lemma {:induction false} ContainsIffOccurs(hay: string, needle: string)
    ensures Contains(hay, needle) <==> exists i :: OccursAt(hay, needle, i)
  {
    if |needle| <= |hay| && hay[..|needle|] == needle {
      assert OccursAt(hay, needle, 0);
    } else if hay == [] {
    } else {
      ContainsIffOccurs(hay[1..], needle);
      if Contains(hay[1..], needle) {
        var i :| OccursAt(hay[1..], needle, i);
        assert hay[i + 1..i + 1 + |needle|] == hay[1..][i..i + |needle|];
        assert OccursAt(hay, needle, i + 1);
      }
      if exists i :: OccursAt(hay, needle, i) {
        var i :| OccursAt(hay, needle, i);
        assert i > 0;
        assert hay[1..][i - 1..i - 1 + |needle|] == hay[i..i + |needle|];
        assert OccursAt(hay[1..], needle, i - 1);
      }
    }
  }

  // ---------------------------------------------------------------------
  // Ordering
  // ---------------------------------------------------------------------

  /** `a.localeCompare(b)`, modelled as lexicographic comparison of
      code points: negative, zero or positive. */
  function StrCmp(a: string, b: string): (r: int)
    ensures -1 <= r <= 1
  {
    if a == [] && b == [] then 0
    else if a == [] then -1
    else if b == [] then 1
    else if a[0] < b[0] then -1
    else if a[0] > b[0] then 1
    else StrCmp(a[1..], b[1..])
  }

  lemma {:induction false} StrCmpZeroIff(a: string, b: string)
    ensures StrCmp(a, b) == 0 <==> a == b
  {
    if a != [] && b != [] && a[0] == b[0] {
      StrCmpZeroIff(a[1..], b[1..]);
      if a[1..] == b[1..] {
        assert a == [a[0]] + a[1..] && b == [b[0]] + b[1..];
      }
    }
  }

  lemma {:induction false} StrCmpAntisymmetric(a: string, b: string)
    ensures StrCmp(a, b) == -StrCmp(b, a)
  {
    if a != [] && b != [] && a[0] == b[0] {
      StrCmpAntisymmetric(a[1..], b[1..]);
    }
  }

  lemma {:induction false} StrCmpTransitive(a: string, b: string, c: string)
    requires StrCmp(a, b) <= 0 && StrCmp(b, c) <= 0
    ensures StrCmp(a, c) <= 0
  {
    if a != [] && b != [] && c != [] && a[0] == b[0] && b[0] == c[0] {
      StrCmpTransitive(a[1..], b[1..], c[1..]);
    }
  }

  /** Strict comparisons chain as well. */
  lemma {:induction false} StrCmpStrictTransitive(a: string, b: string, c: string)
    requires StrCmp(a, b) <= 0 && StrCmp(b, c) <= 0
    requires StrCmp(a, b) < 0 || StrCmp(b, c) < 0
    ensures StrCmp(a, c) < 0
  {
    StrCmpTransitive(a, b, c);
    if StrCmp(a, c) == 0 {
      StrCmpZeroIff(a, c);
      StrCmpAntisymmetric(a, b);
      StrCmpZeroIff(a, b);
      StrCmpZeroIff(b, c);
      StrCmpTransitive(b, c, a);
    }
  }

  // ---------------------------------------------------------------------
  // Joining and number formatting
  // ---------------------------------------------------------------------

  /** `xs.join(sep)`. */
  function Join(xs: seq<string>, sep: string): string {
    if xs == [] then ""
    else if |xs| == 1 then xs[0]
    else xs[0] + sep + Join(xs[1..], sep)
  }

  /** Joining a non-empty list whose first element is non-empty gives a
      non-empty string that starts with that element. */
  lemma JoinStartsWithFirst(xs: seq<string>, sep: string)
    requires xs != []
    ensures |Join(xs, sep)| >= |xs[0]|
    ensures Join(xs, sep)[..|xs[0]|] == xs[0]
  {
  }

  /** Two elements join around one separator. */
  lemma JoinTwo(a: string, b: string, sep: string)
    ensures Join([a, b], sep) == a + sep + b
  {
    assert [a, b][1..] == [b];
  }

  function DigitChar(d: nat): char
    requires d < 10
  {
    ('0' as int + d) as char
  }

  predicate IsDigit(c: char) {
    '0' <= c <= '9'
  }

  /** The decimal rendering of `n` used by template literals (`${n}`). */
  function NatToString(n: nat): (r: string)
    ensures |r| >= 1
    ensures forall i :: 0 <= i < |r| ==> IsDigit(r[i])
    ensures r[0] == '0' ==> n == 0
  {
    if n < 10 then [DigitChar(n)]
    else NatToString(n / 10) + [DigitChar(n % 10)]
  }

  /** Reads a string of decimal digits back as a number. */
  function ParseDigits(s: string): nat
    requires forall i :: 0 <= i < |s| ==> IsDigit(s[i])
  {
    if s == [] then 0
    else
      assert IsDigit(s[|s| - 1]);
      ParseDigits(s[..|s| - 1]) * 10 + (s[|s| - 1] as int - '0' as int)
  }

  /** The decimal rendering is faithful: parsing it gives the number back. */
  lemma {:induction false} NatToStringRoundTrip(n: nat)
    ensures ParseDigits(NatToString(n)) == n
  {
    if n >= 10 {
      var p := NatToString(n / 10);
      var s := NatToString(n);
      assert s[..|s| - 1] == p;
      NatToStringRoundTrip(n / 10);
    }
  }
}

=== FILE: wrappers.dfy ===
/** Failure-carrying values shared by every module of the model:
    `Option` stands for a nullable JSON/TypeScript value and `Result` for an
    operation that either returns a value or throws. */
module Wrappers {

  datatype Option<+T> = None | Some(value: T) {
    /** The value, or `default` when absent (`x ?? default`). */
    function GetOr(default: T): T {
      match this
      case Some(v) => v
      case None => default
    }
  }

  datatype Result<+T, +E> = Ok(value: T) | Err(error: E)
}
